=== FILE: README.md ===
# DualSense codec, cyclic selector and RRT bookkeeping in Dafny

This project models three small sequential parts of a robot path-planning
demo. It proves properties of each.

- **DualSense report codec** (`dualsense.py`). The driver turns the 64-byte
  USB input report of a PS5 controller into controller state. Every control
  is a bit flag, a nibble, a looked-up table entry or a little-endian signed
  16-bit pair at a fixed offset. Motion-sensor and touchpad readings go into
  bounded histories (sliding windows). A 64-byte output report is built and
  then filled in by fixed-offset byte stores for rumble, lights and adaptive
  triggers. The decoders are pure functions of the received bytes, given as
  a `seq<int>` whose elements are all in 0..255.
- **Robot helpers** (`robot.py`). `CyclicVariable` is an index that wraps
  around a non-empty vector. The two-link robot builds one over its joint
  angles. `TwoD_objects.rectangle` gives the closed outline of a rectangle.
- **RRT bookkeeping** (`rrt.py`). This covers the node table and its two
  coordinate lists, uniform sampling, the nearest-node search, a randomised
  step of nominal length min(max_step, d), the collision step (which always
  accepts), and the van der Corput radical inverse `halton`. Random draws and
  the distance `d` of the step are inputs.

Files and modules:

| file | module | contents |
|---|---|---|
| `wrappers.dfy` | `Wrappers` | `Option`, for attributes that start as `None` |
| `bits.dfy` | `Bits` | Python's `&`, `\|`, `<<`, `>>` on naturals; `int.from_bytes` |
| `sliding_window.dfy` | `SlidingWindow` | append-then-pop histories |
| `dualsense_input.dfy` | `DualSenseInput` | input report decoders and sensor histories |
| `dualsense_output.dfy` | `DualSenseOutput` | output report creation and writers |
| `robot.dfy` | `Robot` | `CyclicVariable`, `two2_robot`, `rectangle` |
| `vectors.dfy` | `Vectors` | real vectors, squared norms |
| `rrt.dfy` | `Rrt` | the planner object, its steps, `halton` |

What the planner code does, and so what the model does:

- It keeps no parent or cost tables and does no rewiring.
- `check_collision` appends the stored `x_new` and returns False. It never
  rejects anything.
- A zero-length step is not guarded against.
- Sampling is `6 * uniform(-1, 1)`, which lies in [-6, 6).

The output writers store the flag bytes 0x57 and 0xff directly.
`DualSenseOutput.FlagValues` proves that these are the values of the
driver's `0x1 | 0x2 | 0x4 | 0x10 | 0x40` and `0xff | 0x4 | 0x08`.

The D-pad table is modelled as written. Low nibble 5 decodes to Down alone.
`DualSenseInput.UpdateDpad` states how the table relates to a compass
reading of the hat switch, `Compass`. The two agree on every nibble except
5, where the compass reading also holds Left.

## Model

| member | source | states |
|---|---|---|
| Bits.FlagSetIsBitSet | dualsense.py:76-79 | the flag test `(b & (1 << k)) != 0` holds exactly when binary digit k of b is 1 |
| Bits.AndPow2 | dualsense.py:265-266 | masking with a single power of two (`0x02`, `0x04`) keeps exactly that binary digit |
| Bits.ByteTopBit | dualsense.py:126 | bit 7 of a byte is set exactly when the byte is at least 128 |
| Bits.AndLowNibble | dualsense.py:83 | `b & 0x0F` is the low nibble, b mod 16 |
| Bits.HighNibble | dualsense.py:146 | `(b & 0xF0) >> 4` is the high nibble of a byte, b div 16 |
| Bits.OrShifted | dualsense.py:127-128 | or-ing `c << k` with a value below `1 << k` is their sum: the bit fields do not overlap |
| Bits.OrSubsumed | dualsense.py:215 | or-ing in bits that are already set changes nothing; this is why `0xff \| 0x4 \| 0x08` is `0xff` |
| Bits.FromBytesLEBounds | dualsense.py:98 | an unsigned little-endian value of n bytes lies in [0, 2^(8n)) |
| Bits.FromBytesLESignedBounds | dualsense.py:107-109 | `FromBytesLESigned`, the model of `int.from_bytes(..., byteorder='little', signed=True)`: a signed little-endian value of n bytes lies in the two's complement range of 8n bits |
| Bits.Int16FromBytes | dualsense.py:98-100 | `FromBytesLESigned` of a byte pair: a signed two-byte value is `lo + 256*hi`, minus 65536 when hi >= 128, and lies in [-32768, 32767] |
| Bits.Int16RoundTrip | dualsense.py:98-100 | encoding a 16-bit signed value as two bytes and decoding it gives the value back |
| Bits.Int16BytesRoundTrip | dualsense.py:107-109 | decoding two bytes and encoding the result gives the same two bytes back |
| DualSenseInput.UpdateButtons | dualsense.py:74-79 | triangle, circle, cross and square are bits 7, 6, 5 and 4 of byte 8; triangle is byte 8 >= 128 |
| DualSenseInput.UpdateTriggers | dualsense.py:113-121 | L1, R1, L2 click and R2 click are bits 0..3 of byte 9; the analogue L2 and R2 are bytes 5 and 6, in 0..255 |
| DualSenseInput.UpdateThumbStickPress | dualsense.py:237-240 | R3 and L3 are bits 7 and 6 of byte 9 |
| DualSenseInput.UpdateMisc | dualsense.py:259-266 | share and options are bits 4 and 5 of byte 9; PS, touchpad click and mic are bits 0, 1 and 2 of byte 10 |
| DualSenseInput.UpdateDpad | dualsense.py:81-94 | the low nibble of byte 8 gives the compass direction for every value except 5, which gives Down only; 8..15 release all four; Up and Down, and Left and Right, are never both held |
| DualSenseInput.UpdateThumbsticks | dualsense.py:242-257 | the stick offsets are bytes 1..4 minus 127, in [-127, 128]; a stick's angle is forced to 0 exactly when both of its bytes are within 4 of 127 |
| DualSenseInput.BatteryState | dualsense.py:146 | `(battery & 0xF0) >> 4` is the byte's high nibble, battery div 16 |
| DualSenseInput.BatteryLevel | dualsense.py:157 | `battery & 0x0F` is the byte's low nibble, battery mod 16 |
| DualSenseInput.UpdateBattery | dualsense.py:144-157 | the level lies in [5, 100]; it is 100 exactly when the low nibble is at least 10, and otherwise low nibble * 10 + 5; the status is Unknown exactly for high nibbles missing from the table, and otherwise the status whose code is the high nibble |
| DualSenseInput.BatteryCodeRoundTrip | dualsense.py:147-156 | a report whose high battery nibble is a status's code decodes to that status |
| DualSenseInput.BatteryNameUnknown | dualsense.py:147-156 | the decoded state's name is `POWER_SUPPLY_STATUS_UNKNOWN` exactly when the high nibble of byte 53 is not one of the six table keys |
| DualSenseInput.Int16At | dualsense.py:98 | each gyro or accelerometer axis is the signed little-endian value of its byte pair, in [-32768, 32767] |
| DualSenseInput.UpdateGyrometer | dualsense.py:96-103 | only pitch, yaw and roll change; each new reading goes through the windowed push; equal-length histories stay equal length |
| DualSenseInput.UpdateAccelerometer | dualsense.py:105-111 | only X, Y and Z change, in the same way as the gyroscope histories |
| DualSenseInput.TouchAt | dualsense.py:125-129 | a finger is active exactly when bit 7 of its first byte is clear; x and y are 12-bit values in [0, 4095] assembled from the next three bytes |
| DualSenseInput.TouchRoundTrip | dualsense.py:125-129 | encoding a finger as four report bytes and decoding them gives the finger back |
| DualSenseInput.UpdateTouchpad | dualsense.py:123-142 | fingers 0 and 1 are read at offsets 33 and 37; only the four touchpad histories change, each by the windowed push, so the x and y histories stay in step when they were |
| DualSenseInput.UpdatesKeepBounded | dualsense.py:101-103 | the gyroscope, accelerometer and touchpad updates keep every history in step with its partners and no longer than its bound |
| DualSenseInput.ReadAllSensors | dualsense.py:268-278 | `updateAll` updates the touchpad, accelerometer and gyrometer with n=1, so from histories of at most one entry every history holds exactly the newest reading |
| SlidingWindow.Push | dualsense.py:101-103 | the result is a suffix of the list with the reading appended last; it drops the oldest entry exactly when the list would exceed n; a list of length at most n stays at most n |
| SlidingWindow.PushAllKeepsLastN | dualsense.py:101-103 | a window that starts within its bound, fed any readings, holds exactly the last n of all it was fed, oldest first |
| SlidingWindow.PushLastN | dualsense.py:110-111 | one push followed by further readings keeps the same last n entries as the whole input |
| SlidingWindow.PushTogether | dualsense.py:139-142 | lists updated together, with the first list's length deciding the pop, stay equal length when they start so, and each gets the single-list push |
| DualSenseOutput.DefaultWrites | dualsense.py:181-236 | with their default arguments on a fresh report, `rumble` drives both motors at 100, `lights` stores green (0, 100, 0) at brightness 1, and `set_trigger` puts both triggers in mode 0xFC with zero intensities; all stay bytes |
| DualSenseOutput.FlagValues | dualsense.py:164 | the content flags `0x1\|0x2\|0x4\|0x10\|0x40` are 0x57 and the trigger flags `0xff\|0x4\|0x08` are 0xff |
| DualSenseOutput.InitOutReport | dualsense.py:159-171 | without a report it yields 64 bytes `[0x02, 0xff, 0x57, 0, ..., 0]`; an existing report is left unchanged |
| DualSenseOutput.InitOutReportIdempotent | dualsense.py:159-160 | a second initialisation changes nothing, and the fresh report holds bytes |
| DualSenseOutput.Rumble | dualsense.py:181-189 | only bytes 3 and 4 change: R and L when they differ, otherwise the intensity in both; byte values stay bytes |
| DualSenseOutput.Lights | dualsense.py:191-197 | writes mode at 39, pulse, brightness and player number 4 at 42..44, and rgb over the slice 45:48; the length stays 64 exactly as long as rgb has three entries; with three entries nothing outside 39 and 42..47 changes |
| DualSenseOutput.SetTrigger | dualsense.py:199-235 | only bytes 1, 2, 11, 13..17, 20, 22, 24..28 and 31 change; both triggers get the same mode and intensities 1..6, the left block equal to the right block 11 bytes on; missing intensities are zeros |
| DualSenseOutput.TriggerBlock | dualsense.py:218-225 | one trigger block writes the mode, intensities 1..5 and intensity 6 at its fixed offsets and nothing else |
| DualSenseOutput.RumbleLightsCommute | dualsense.py:181-197 | on a 64-byte report, rumble then lights gives the same report as lights then rumble |
| Robot.PyMod | robot.py:19 | Python's modulus by a positive divisor lies in [0, divisor) and satisfies the division identity |
| Robot.NewValid | robot.py:11-16 | about `New` (the constructor) and `Value` (`get_value`): a new selector starts at index 0, so it can be read exactly when its vector is non-empty, and then it reads the first element |
| Robot.Increment | robot.py:18-19 | the index stays in [0, len); it moves up by one, and from len-1 back to 0; the vector is unchanged |
| Robot.Decrement | robot.py:21-22 | the index stays in [0, len); it moves down by one, and from 0 to len-1; the vector is unchanged |
| Robot.IncrementDecrementInverse | robot.py:18-22 | increment then decrement, and decrement then increment, restore the selector |
| Robot.IncrementNIndex | robot.py:18-19 | up to one full turn, k increments add k to the index, wrapping once past the end |
| Robot.FullTurn | robot.py:18-19 | len consecutive increments return the selector to its start |
| Robot.ReadsInOrder | robot.py:11-19 | after j increments from construction (j below the vector's length), `get_value` returns element j: the selector walks the vector in order |
| Robot.TwoLinkSelector | robot.py:26-32 | about `NewTwoLinkRobot` (`two2_robot(L1, L2)`): the two-link robot's selector is over the two-element vector [0, 0] and alternates between its two positions, reading 0 at each |
| Robot.Rectangle | robot.py:153-157 | five vertices from (x, y) with the last equal to the first; the edges go +w along x, +h along y, -w along x and -h along y |
| Robot.RectangleArea | robot.py:153-157 | the outline encloses signed area w * h (counter-clockwise for positive w and h) |
| Rrt.New | rrt.py:8-15 | the tree stores `start`, its node table is `[start]`, the coordinate lists are `[start[0]]` and `[start[1]]`, the goal is stored, there are no edges, the sample and step are unset, and the dimension is len(start); it satisfies the tree invariant |
| Rrt.GetXSample | rrt.py:17-19 | the sample has n coordinates, each 6 times its draw and so in [-6, 6); the sample is kept in the tree |
| Rrt.GetNearestNode | rrt.py:21-24 | returns an index in range such that no stored node is strictly closer to the sample, and no earlier node is as close |
| Rrt.GetXNew | rrt.py:26-32 | the new point moves from x_nearest toward x_sample by step_size / d of the way, a displacement of length step_size; noise 1 with d <= max_step lands on the sample; noise in [0, 1] keeps the step within both max_step and d |
| Rrt.StepGeometry | rrt.py:27-31 | the step point is displaced by s / d times the direction, has squared distance s*s from x_nearest, and equals the sample when s = d |
| Rrt.StepBounds | rrt.py:29 | with noise in [0, 1] and a non-negative max_step, the step size is at most both max_step and d |
| Rrt.CheckCollision | rrt.py:34-39 | the stored x_new is appended to the nodes and its coordinates to the two lists; each list grows by exactly one with earlier entries unchanged; nothing else changes; the tree invariant is kept; returns False |
| Rrt.CheckCollisionIgnoresArgument | rrt.py:34-39 | the result does not depend on the argument |
| Rrt.ExtendFromNode | rrt.py:26-39 | a step from a stored node followed by the collision step keeps the tree invariant, adds exactly one node, and puts it at distance step_size from that node |
| Rrt.Digits | rrt.py:46-47 | the digits the loop peels off with `index % base` and `index //= base`, least significant first, each in [0, base) |
| Rrt.DigitsRoundTrip | rrt.py:46-47 | for a non-negative index, recombining its digits (d0 + d1·b + d2·b² + …) gives the index back |
| Rrt.RadicalInverse | rrt.py:41-48 | the index's base-b digits read after the radix point (0.d0 d1 d2 …) lie in [0, 1) for every base of at least 2 |
| Rrt.Halton | rrt.py:41-48 | the loop terminates for base >= 2 and returns the mirrored base-b digits of the index, in [0, 1); a non-positive index gives 0 for any base |
| Rrt.HaltonStep | rrt.py:44-47 | one loop turn, going to fraction/b, result + digit·fraction/b and index // b, keeps `result + fraction * RadicalInverse(index)` unchanged and the fraction positive |
| Rrt.HaltonBase2 | rrt.py:41-48 | in base 2, halton gives 0, 1/2, 1/4 and 3/4 for indices 0, 1, 2 and 3 |

## Left out

- Device I/O is not modelled: `connect`, `disconnect`, `receive`, `send`, `clear_outReport` and `send_outReport`. The decoders take the received bytes as input.
- The `updateAll` read-then-decode sequence is not modelled, because it is device I/O followed by the decoders modelled here.
- The stick angles `-atan2(dy, dx)` are floating-point trigonometry. `StickAngle.Toward` records the offsets they are computed from. Only the dead-zone rule that forces the angle to 0 is modelled.
- The placeholder attributes set by `__init__` (`dpad_up`, ..., `L1`, `L2`, `R1btn`, `R2btn`) are not modelled. The decoders replace or never read them. The D-pad, battery, R3/L3 and history defaults are modelled as `Released`, `InitialBattery`, `NotPressed` and `InitialSensors`.
- Attributes that exist only after their first update are not modelled as missing. Each decoder returns its own record instead.
- Decoders require byte values and a report long enough for the highest index they read. A shorter report is an index error in the Python code.
- `Rumble`, `Lights` and `SetTrigger` store whatever integers they are given, as the Python code does. Staying in byte range is proved only when the arguments are bytes.
- DualSenseOutput.Rumble: requires an existing report to reach byte 4 (`Writable(report, 4)`). A shorter report raises an index error in the Python code, after the stores that fit. That error path is not modelled.
- DualSenseOutput.Lights: requires an existing report to reach byte 44 (`Writable(report, 44)`). A shorter report raises an index error partway through the stores. That error path is not modelled.
- DualSenseOutput.SetTrigger: requires an existing report to reach byte 31 and, when intensities are given, at least seven of them. Otherwise the Python code raises an index error after storing some bytes. For example, four intensities store bytes 1, 2, 11 and 13..15 and then fail at `intensities[4]`. These partial writes are not modelled.
- Default arguments are constants rather than optional parameters: `DefaultIntensity`, `DefaultBrightness`, `DefaultRgb` and `DefaultTriggerMode` for the writers, and `DefaultMotionHistory` (20), `DefaultTouchHistory` (1) and `ReadAllHistory` (1) for the history bounds. `DefaultMotionHistory` and `DefaultTouchHistory` only record the defaults; `ReadAllSensors` uses `ReadAllHistory`. The lights mode and pulse default to 0. The robot's constructor defaults (`L1=1, L2=1`, robot.py:26) and the rectangle's (`x=y=w=h=1`, robot.py:153) are not defaults in the model either: `NewTwoLinkRobot` and `Rectangle` take every argument explicitly.
- Forward kinematics through an external robotics library, and all plotting and figure helpers, are not modelled.
- The circle, ellipse and polygon samplers are not modelled, because they are floating-point trigonometry.
- The Streamlit application and its driver loop are not modelled.
- The RRT* near-set, cost and rewire steps are not modelled. They are called from the application but have no implementation in `rrt.py`.
- Random number generation is not modelled. The uniform draws of `get_x_sample` and the normal noise factor of `get_x_new` are parameters. `NoiseMean` and `NoiseStdDev` only record that distribution, and `DefaultMaxStep` (0.888) only records the default of `max_step`; no member uses them.
- Rrt.GetXNew: bounds the step by max_step only for a noise factor in [0, 1], because the normal noise factor can exceed 1.
- Rrt.GetXNew: the distance `d` is a parameter with `d * d` equal to the squared distance. No square root is computed. `d = 0` is excluded, where numpy divides by zero.
- Rrt.GetNearestNode: compares squared distances, which selects the same index as comparing distances. It requires every node to have the sample's dimension, since numpy broadcasting of mismatched shapes is not modelled.
- Rrt.Halton: requires base >= 2 or a non-positive index. For a positive index, base 1 never terminates and base 0 divides by zero; a negative base with a positive index is not modelled either.
- Rrt.GetXNew: requires `x_nearest` and `x_sample` to have the same length. numpy broadcasting of a length-1 operand, and the error raised for other mismatched lengths (rrt.py:27), are not modelled.
- Rrt.CheckCollision: requires a stored `x_new` with at least two coordinates. Calling `check_collision` before any `get_x_new` raises an attribute error at rrt.py:35, and a shorter `x_new` is appended to `nodes` before rrt.py:36 or rrt.py:37 raises, which leaves the three lists out of step. Neither error path is modelled.
- Floating point is modelled as exact real arithmetic. Rounding in `halton`, in sampling and in stepping is not modelled.
- The `edges` list is created empty and never written. The goal is stored and never read.

=== FILE: bits.dfy ===
/** Python's integer bit operators (`&`, `|`, `<<`, `>>`) on non-negative
    integers, and `int.from_bytes` in little-endian order, stated over
    unbounded integers. */
module Bits {

  /** A value that fits in one byte, as every element of a HID report does. */
  predicate IsByte(x: int)
  {
    0 <= x < 256
  }

  predicate IsBytes(s: seq<int>)
  {
    forall i :: 0 <= i < |s| ==> IsByte(s[i])
  }

  function Pow2(k: nat): (r: nat)
    ensures r > 0
  {
    if k == 0 then 1 else 2 * Pow2(k - 1)
  }

  /** `a & b`: the binary digits both operands have set. */
  function And(a: nat, b: nat): (r: nat)
    ensures r <= a && r <= b
    decreases a
  {
    if a == 0 || b == 0 then 0
    else 2 * And(a / 2, b / 2) + (if a % 2 == 1 && b % 2 == 1 then 1 else 0)
  }

  /** `a | b`: the binary digits either operand has set. */
  function Or(a: nat, b: nat): (r: nat)
    ensures a <= r && b <= r && r <= a + b
    decreases a + b
  {
    if a == 0 && b == 0 then 0
    else 2 * Or(a / 2, b / 2) + (if a % 2 == 1 || b % 2 == 1 then 1 else 0)
  }

  /** `a << k`: k doublings. */
  function ShiftLeft(a: nat, k: nat): nat
  {
    if k == 0 then a else 2 * ShiftLeft(a, k - 1)
  }

  /** `a >> k`: k halvings, rounding down. */
  function ShiftRight(a: nat, k: nat): nat
  {
    if k == 0 then a else ShiftRight(a / 2, k - 1)
  }

  /** Shifting left by k multiplies by 2^k. */
  lemma {:induction false} ShiftLeftIsProduct(a: nat, k: nat)
    ensures ShiftLeft(a, k) == a * Pow2(k)
  {
    if k > 0 {
      ShiftLeftIsProduct(a, k - 1);
      assert a * Pow2(k) == a * (2 * Pow2(k - 1)) == 2 * (a * Pow2(k - 1));
    }
  }

  lemma ShiftLeftOne(k: nat)
    ensures ShiftLeft(1, k) == Pow2(k)
  {
    ShiftLeftIsProduct(1, k);
  }

  /** Binary digit k of a (counting from the least significant), read off by
      halving k times: the arithmetic meaning of a flag bit. */
  predicate BitSet(a: nat, k: nat)
  {
    if k == 0 then a % 2 == 1 else BitSet(a / 2, k - 1)
  }

  /** The driver's flag test `(a & (1 << k)) != 0`. */
  predicate FlagSet(a: nat, k: nat)
  {
    And(a, ShiftLeft(1, k)) != 0
  }

  /** Masking with a single power of two keeps exactly that digit. */
  lemma {:induction false} AndPow2(a: nat, k: nat)
    ensures And(a, Pow2(k)) == if BitSet(a, k) then Pow2(k) else 0
  {
    if k == 0 {
    } else if a == 0 {
      AndPow2(0, k - 1);
    } else {
      AndPow2(a / 2, k - 1);
      assert Pow2(k) / 2 == Pow2(k - 1);
    }
  }

  /** The driver's `&`-based flag test reads exactly binary digit k. */
  lemma FlagSetIsBitSet(a: nat, k: nat)
    ensures FlagSet(a, k) <==> BitSet(a, k)
  {
    ShiftLeftOne(k);
    AndPow2(a, k);
  }

  /** For a byte, bit 7 is set exactly when the byte is at least 128. */
  lemma ByteTopBit(b: nat)
    requires b < 256
    ensures BitSet(b, 7) <==> b >= 128
  {
    var b1, b2, b3, b4, b5, b6, b7 := b / 2, b / 4, b / 8, b / 16, b / 32, b / 64, b / 128;
    assert b1 / 2 == b2 && b2 / 2 == b3 && b3 / 2 == b4 && b4 / 2 == b5;
    assert b5 / 2 == b6 && b6 / 2 == b7;
    assert BitSet(b, 7) == BitSet(b1, 6) == BitSet(b2, 5) == BitSet(b3, 4) == BitSet(b4, 3);
    assert BitSet(b4, 3) == BitSet(b5, 2) == BitSet(b6, 1) == BitSet(b7, 0);
  }

  /** Masking with a doubled value shifts the problem down one digit. */
  lemma AndDouble(a: nat, c: nat)
    ensures And(a, 2 * c) == 2 * And(a / 2, c)
  {
    var b := 2 * c;
    assert b / 2 == c && b % 2 == 0;
    if a != 0 && c != 0 {
      assert And(a, b) == 2 * And(a / 2, b / 2) + 0;
    }
  }

  /** Masking with an odd value keeps the lowest digit and shifts the rest. */
  lemma AndOdd(a: nat, c: nat)
    ensures And(a, 2 * c + 1) == 2 * And(a / 2, c) + a % 2
  {
    var b := 2 * c + 1;
    assert b / 2 == c && b % 2 == 1;
    if a != 0 {
      assert And(a, b) == 2 * And(a / 2, b / 2) + a % 2;
    }
  }

  /** `a & 0x0F` is the low nibble. */
  lemma AndLowNibble(a: nat)
    ensures And(a, 0x0F) == a % 16
  {
    var a1 := a / 2;
    var a2 := a1 / 2;
    var a3 := a2 / 2;
    AndOdd(a3, 0);
    AndOdd(a2, 1);
    AndOdd(a1, 3);
    AndOdd(a, 7);
    assert And(a3, 0) == 0;
    HalveMod4(a2);
    HalveMod8(a1);
    HalveMod16(a);
  }

  /** The remainders modulo 4, 8 and 16, each rebuilt from the halved
      value's remainder and the lowest digit. */
  lemma HalveMod4(a: nat)
    ensures a % 4 == 2 * ((a / 2) % 2) + a % 2
  {
  }

  lemma HalveMod8(a: nat)
    ensures a % 8 == 2 * ((a / 2) % 4) + a % 2
  {
  }

  lemma HalveMod16(a: nat)
    ensures a % 16 == 2 * ((a / 2) % 8) + a % 2
  {
  }

  /** `(a & 0xF0) >> 4` is the high nibble of a byte. */
  lemma HighNibble(a: nat)
    requires a < 256
    ensures ShiftRight(And(a, 0xF0), 4) == a / 16
  {
    AndHighNibble(a);
    ShiftRightFour(And(a, 0xF0));
  }

  /** `a & 0xF0` clears the low nibble of a byte. */
  lemma AndHighNibble(a: nat)
    requires a < 256
    ensures And(a, 0xF0) == 16 * (a / 16)
  {
    var a1 := a / 2;
    var a2 := a1 / 2;
    var a3 := a2 / 2;
    var a4 := a3 / 2;
    assert a4 == a / 16 && a4 < 16;
    AndDouble(a, 120);
    AndDouble(a1, 60);
    AndDouble(a2, 30);
    AndDouble(a3, 15);
    AndLowNibble(a4);
    assert And(a4, 15) == a4;
    assert And(a3, 30) == 2 * a4;
    assert And(a2, 60) == 4 * a4;
    assert And(a1, 120) == 8 * a4;
  }

  lemma ShiftRightFour(m: nat)
    ensures ShiftRight(m, 4) == m / 16
  {
    assert ShiftRight(m, 4) == ShiftRight(m / 2, 3) == ShiftRight(m / 2 / 2, 2)
        == ShiftRight(m / 2 / 2 / 2, 1) == ShiftRight(m / 2 / 2 / 2 / 2, 0);
    assert m / 2 / 2 / 2 / 2 == m / 16;
  }

  lemma {:induction false} OrZero(a: nat)
    ensures Or(a, 0) == a
    decreases a
  {
    if a != 0 {
      OrZero(a / 2);
    }
  }

  /** Or-ing a value shifted left by k with one below `1 << k` is addition:
      the two have no binary digit in common. */
  lemma {:induction false} OrShifted(c: nat, d: nat, k: nat)
    requires d < Pow2(k)
    ensures Or(ShiftLeft(c, k), d) == ShiftLeft(c, k) + d
  {
    if k == 0 {
      OrZero(c);
    } else {
      var half := ShiftLeft(c, k - 1);
      if 2 * half != 0 || d != 0 {
        OrShifted(c, d / 2, k - 1);
        assert (2 * half) / 2 == half && (2 * half) % 2 == 0;
      }
    }
  }

  /** Or-ing in digits that are already set changes nothing: `a | b == a`
      whenever `a & b == b`. */
  lemma {:induction false} OrSubsumed(a: nat, b: nat)
    requires And(a, b) == b
    ensures Or(a, b) == a
    decreases a
  {
    if a != 0 && b != 0 {
      OrSubsumed(a / 2, b / 2);
    } else if a != 0 {
      OrZero(a);
    }
  }

  /** `int.from_bytes(bs, byteorder='little')` (unsigned). */
  function FromBytesLE(bs: seq<int>): int
  {
    if |bs| == 0 then 0 else bs[0] + 256 * FromBytesLE(bs[1..])
  }

  /** `int.from_bytes(bs, byteorder='little', signed=True)`: the unsigned
      value read as two's complement over 8 * |bs| bits. */
  function FromBytesLESigned(bs: seq<int>): int
  {
    var u := FromBytesLE(bs);
    if |bs| > 0 && u >= Pow2(8 * |bs| - 1) then u - Pow2(8 * |bs|) else u
  }

  lemma {:induction false} FromBytesLEBounds(bs: seq<int>)
    requires IsBytes(bs)
    ensures 0 <= FromBytesLE(bs) < Pow2(8 * |bs|)
  {
    if |bs| > 0 {
      FromBytesLEBounds(bs[1..]);
      Pow2Bytes(|bs| - 1);
    }
  }

  lemma {:induction false} Pow2Bytes(n: nat)
    ensures Pow2(8 * (n + 1)) == 256 * Pow2(8 * n)
  {
    var k := 8 * n;
    assert Pow2(k + 8) == 2 * Pow2(k + 7) == 4 * Pow2(k + 6) == 8 * Pow2(k + 5)
      == 16 * Pow2(k + 4) == 32 * Pow2(k + 3) == 64 * Pow2(k + 2) == 128 * Pow2(k + 1)
      == 256 * Pow2(k);
  }

  /** A signed little-endian value of n bytes lies in the two's complement
      range of 8 * n bits. */
  lemma FromBytesLESignedBounds(bs: seq<int>)
    requires IsBytes(bs) && |bs| > 0
    ensures -(Pow2(8 * |bs| - 1) as int) <= FromBytesLESigned(bs) < Pow2(8 * |bs| - 1)
  {
    FromBytesLEBounds(bs);
    assert Pow2(8 * |bs|) == 2 * Pow2(8 * |bs| - 1);
  }

  /** The two-byte case: `lo + 256 * hi`, less 65536 when the top bit of hi
      is set, always within the 16-bit signed range. */
  lemma Int16FromBytes(lo: int, hi: int)
    requires IsByte(lo) && IsByte(hi)
    ensures FromBytesLESigned([lo, hi]) == lo + 256 * hi - (if hi >= 128 then 65536 else 0)
    ensures -32768 <= FromBytesLESigned([lo, hi]) <= 32767
  {
    assert [lo, hi][1..] == [hi];
    assert [hi][1..] == [];
    assert FromBytesLE([hi]) == hi;
    assert FromBytesLE([lo, hi]) == lo + 256 * hi;
    assert Pow2(15) == 32768 && Pow2(16) == 65536;
  }

  /** The inverse direction: a 16-bit signed value as two little-endian
      bytes (`v.to_bytes(2, 'little', signed=True)`). */
  function Int16ToBytes(v: int): (bs: seq<int>)
    requires -32768 <= v <= 32767
    ensures |bs| == 2 && IsBytes(bs)
  {
    var u := if v < 0 then v + 65536 else v;
    [u % 256, u / 256]
  }

  lemma Int16RoundTrip(v: int)
    requires -32768 <= v <= 32767
    ensures FromBytesLESigned(Int16ToBytes(v)) == v
  {
    var bs := Int16ToBytes(v);
    Int16FromBytes(bs[0], bs[1]);
    assert bs == [bs[0], bs[1]];
  }

  lemma Int16BytesRoundTrip(lo: int, hi: int)
    requires IsByte(lo) && IsByte(hi)
    ensures -32768 <= FromBytesLESigned([lo, hi]) <= 32767
    ensures Int16ToBytes(FromBytesLESigned([lo, hi])) == [lo, hi]
  {
    Int16FromBytes(lo, hi);
  }
}

=== FILE: dualsense_input.dfy ===
/** Decoding of the DualSense (PS5 controller) USB input report: every
    control is a fixed byte offset, a bit mask, a nibble or a little-endian
    signed 16-bit pair. The report is the sequence of bytes the driver last
    received; reading it from the device is not part of this model. */
module DualSenseInput {
  import opened Bits
  import SlidingWindow

  /** The received report holds bytes and reaches at least index k (a
      shorter report makes the driver fail with an index error). */
  predicate Covers(data: seq<int>, k: nat)
  {
    IsBytes(data) && k < |data|
  }

  /* ---------------------------------------------------------------- *
   *  Buttons and flags                                               *
   * ---------------------------------------------------------------- */

  datatype FaceButtons = FaceButtons(triangle: bool, circle: bool, cross: bool, square: bool)

  /** `updateButtons`: the high nibble of byte 8, one flag per bit. */
  function UpdateButtons(data: seq<int>): (r: FaceButtons)
    requires Covers(data, 8)
    ensures r.triangle <==> data[8] >= 128
    ensures r.triangle <==> BitSet(data[8], 7)
    ensures r.circle <==> BitSet(data[8], 6)
    ensures r.cross <==> BitSet(data[8], 5)
    ensures r.square <==> BitSet(data[8], 4)
  {
    var b := data[8];
    FlagSetIsBitSet(b, 7); FlagSetIsBitSet(b, 6); FlagSetIsBitSet(b, 5); FlagSetIsBitSet(b, 4);
    ByteTopBit(b);
    FaceButtons(FlagSet(b, 7), FlagSet(b, 6), FlagSet(b, 5), FlagSet(b, 4))
  }

  datatype Triggers = Triggers(r1: bool, r2: int, r2Button: bool, l1: bool, l2: int, l2Button: bool)

  /** `updateTriggers`: shoulder buttons and trigger clicks are bits 0..3 of
      byte 9; the analogue trigger travel is bytes 5 (left) and 6 (right). */
  function UpdateTriggers(data: seq<int>): (r: Triggers)
    requires Covers(data, 9)
    ensures r.l1 <==> BitSet(data[9], 0)
    ensures r.r1 <==> BitSet(data[9], 1)
    ensures r.l2Button <==> BitSet(data[9], 2)
    ensures r.r2Button <==> BitSet(data[9], 3)
    ensures r.l2 == data[5] && r.r2 == data[6]
    ensures 0 <= r.l2 < 256 && 0 <= r.r2 < 256
  {
    var misc := data[9];
    FlagSetIsBitSet(misc, 0); FlagSetIsBitSet(misc, 1);
    FlagSetIsBitSet(misc, 2); FlagSetIsBitSet(misc, 3);
    Triggers(FlagSet(misc, 1), data[6], FlagSet(misc, 3), FlagSet(misc, 0), data[5], FlagSet(misc, 2))
  }

  datatype StickPress = StickPress(r3: bool, l3: bool)

  /** The state `__init__` gives R3 and L3. */
  const NotPressed := StickPress(false, false)

  /** `updateThumbStickPress`: R3 and L3 are bits 7 and 6 of byte 9. */
  function UpdateThumbStickPress(data: seq<int>): (r: StickPress)
    requires Covers(data, 9)
    ensures r.r3 <==> data[9] >= 128
    ensures r.r3 <==> BitSet(data[9], 7)
    ensures r.l3 <==> BitSet(data[9], 6)
  {
    var misc := data[9];
    FlagSetIsBitSet(misc, 7); FlagSetIsBitSet(misc, 6);
    ByteTopBit(misc);
    StickPress(FlagSet(misc, 7), FlagSet(misc, 6))
  }

  datatype Misc = Misc(options: bool, share: bool, ps: bool, touchButton: bool, micButton: bool)

  /** `updateMisc`: share and options are bits 4 and 5 of byte 9; the PS,
      touchpad-click and microphone buttons are bits 0, 1 and 2 of byte 10. */
  function UpdateMisc(data: seq<int>): (r: Misc)
    requires Covers(data, 10)
    ensures r.share <==> BitSet(data[9], 4)
    ensures r.options <==> BitSet(data[9], 5)
    ensures r.ps <==> BitSet(data[10], 0)
    ensures r.touchButton <==> BitSet(data[10], 1)
    ensures r.micButton <==> BitSet(data[10], 2)
  {
    var misc, misc2 := data[9], data[10];
    FlagSetIsBitSet(misc, 5); FlagSetIsBitSet(misc, 4); FlagSetIsBitSet(misc2, 0);
    AndPow2(misc2, 1); AndPow2(misc2, 2);
    Misc(FlagSet(misc, 5), FlagSet(misc, 4), FlagSet(misc2, 0),
         And(misc2, 0x02) != 0, And(misc2, 0x04) != 0)
  }

  /* ---------------------------------------------------------------- *
   *  D-pad                                                           *
   * ---------------------------------------------------------------- */

  datatype Dpad = Dpad(up: bool, down: bool, left: bool, right: bool)

  /** No direction held; also the state `__init__` gives the D-pad. */
  const Released := Dpad(false, false, false, false)

  /** The driver's table from the low nibble of byte 8, as written: entry 5
      is Down alone. */
  const DpadMap: map<int, Dpad> := map[
    0 := Dpad(true, false, false, false),
    1 := Dpad(true, false, false, true),
    2 := Dpad(false, false, false, true),
    3 := Dpad(false, true, false, true),
    4 := Dpad(false, true, false, false),
    5 := Dpad(false, true, false, false),
    6 := Dpad(false, false, true, false),
    7 := Dpad(true, false, true, false)
  ]

  /** Reference reading of a hat switch: value k in 0..7 points k * 45
      degrees clockwise from Up, anything else is released. */
  function Compass(k: int): Dpad
  {
    if 0 <= k < 8 then
      Dpad(k == 7 || k == 0 || k == 1, 3 <= k <= 5, 5 <= k <= 7, 1 <= k <= 3)
    else Released
  }

  /** `updateDpad`: the low nibble of byte 8 through the table, unknown
      values (8..15) releasing every direction. */
  function UpdateDpad(data: seq<int>): (r: Dpad)
    requires Covers(data, 8)
    ensures !(r.up && r.down) && !(r.left && r.right)
    ensures data[8] % 16 >= 8 ==> r == Released
    ensures data[8] % 16 != 5 ==> r == Compass(data[8] % 16)
    ensures data[8] % 16 == 5 ==> r == Compass(5).(left := false)
  {
    var state := And(data[8], 0x0F);
    AndLowNibble(data[8]);
    if state in DpadMap then DpadMap[state] else Released
  }

  /* ---------------------------------------------------------------- *
   *  Thumbsticks                                                     *
   * ---------------------------------------------------------------- */

  /** A stick's angle: exactly 0 inside the dead zone, otherwise
      `-atan2(dy, dx)`, which is left symbolic here. */
  datatype StickAngle = Centered | Toward(dx: int, dy: int)

  datatype Sticks = Sticks(lx: int, ly: int, rx: int, ry: int, rThumb: StickAngle, lThumb: StickAngle)

  const Deadzone := 4

  function Abs(x: int): int
  {
    if x < 0 then -x else x
  }

  function Angle(dx: int, dy: int): StickAngle
  {
    if Abs(dx) > Deadzone || Abs(dy) > Deadzone then Toward(dx, dy) else Centered
  }

  /** `updateThumbsticks`: bytes 1..4 centred on 127, and an angle that is
      forced to 0 while both offsets of a stick are within the dead zone. */
  function UpdateThumbsticks(data: seq<int>): (r: Sticks)
    requires Covers(data, 4)
    ensures r.lx + 127 == data[1] && r.ly + 127 == data[2]
    ensures r.rx + 127 == data[3] && r.ry + 127 == data[4]
    ensures -127 <= r.lx <= 128 && -127 <= r.ly <= 128
    ensures -127 <= r.rx <= 128 && -127 <= r.ry <= 128
    ensures r.lThumb == Centered <==> 123 <= data[1] <= 131 && 123 <= data[2] <= 131
    ensures r.rThumb == Centered <==> 123 <= data[3] <= 131 && 123 <= data[4] <= 131
    ensures r.lThumb != Centered ==> r.lThumb == Toward(r.lx, r.ly)
    ensures r.rThumb != Centered ==> r.rThumb == Toward(r.rx, r.ry)
  {
    var lx, ly, rx, ry := data[1] - 127, data[2] - 127, data[3] - 127, data[4] - 127;
    Sticks(lx, ly, rx, ry, Angle(rx, ry), Angle(lx, ly))
  }

  /* ---------------------------------------------------------------- *
   *  Battery                                                         *
   * ---------------------------------------------------------------- */

  datatype BatteryStatus =
    | Discharging | Charging | Full | NotCharging | Error | TempOrVoltageOutOfRange | Unknown
  {
    /** The string the driver stores in `battery_state`. */
    function Name(): string
    {
      match this
      case Discharging => "POWER_SUPPLY_STATUS_DISCHARGING"
      case Charging => "POWER_SUPPLY_STATUS_CHARGING"
      case Full => "POWER_SUPPLY_STATUS_FULL"
      case NotCharging => "POWER_SUPPLY_STATUS_NOT_CHARGING"
      case Error => "POWER_SUPPLY_STATUS_ERROR"
      case TempOrVoltageOutOfRange => "POWER_SUPPLY_TEMP_OR_VOLTAGE_OUT_OF_RANGE"
      case Unknown => "POWER_SUPPLY_STATUS_UNKNOWN"
    }

    /** Inverse of the table: the high nibble that reports this status. */
    function Code(): int
    {
      match this
      case Discharging => 0x0
      case Charging => 0x1
      case Full => 0x2
      case NotCharging => 0xb
      case Error => 0xf
      case TempOrVoltageOutOfRange => 0xa
      case Unknown => -1
    }
  }

  /** High nibble of byte 53 to charging status. */
  const BatteryStates: map<int, BatteryStatus> := map[
    0x0 := Discharging,
    0x1 := Charging,
    0x2 := Full,
    0xb := NotCharging,
    0xf := Error,
    0xa := TempOrVoltageOutOfRange
  ]

  datatype Battery = Battery(state: BatteryStatus, level: int)

  /** What `__init__` stores before any report is decoded. */
  const InitialBattery := Battery(Unknown, 0)

  /** `updateBattery`: status from the high nibble of byte 53 (Unknown for
      nibbles missing from the table), charge level in percent from the low
      nibble, `min(nibble * 10 + 5, 100)`. */
  function UpdateBattery(data: seq<int>): (r: Battery)
    requires Covers(data, 53)
    ensures 5 <= r.level <= 100
    ensures r.level == 100 <==> data[53] % 16 >= 10
    ensures r.level < 100 ==> r.level == data[53] % 16 * 10 + 5 && r.level % 10 == 5
    ensures r.state == Unknown <==> data[53] / 16 !in {0x0, 0x1, 0x2, 0xa, 0xb, 0xf}
    ensures r.state != Unknown ==> r.state.Code() == data[53] / 16
  {
    var state := BatteryState(data[53]);
    var level := BatteryLevel(data[53]) * 10 + 5;
    Battery(if state in BatteryStates then BatteryStates[state] else Unknown,
            if level < 100 then level else 100)
  }

  /** `(battery & 0xF0) >> 4`, the status nibble. */
  function BatteryState(battery: int): (s: int)
    requires IsByte(battery)
    ensures s == battery / 16
  {
    HighNibble(battery);
    ShiftRight(And(battery, 0xF0), 4)
  }

  /** `battery & 0x0F`, the charge nibble. */
  function BatteryLevel(battery: int): (l: int)
    requires IsByte(battery)
    ensures l == battery % 16
  {
    AndLowNibble(battery);
    And(battery, 0x0F)
  }

  /** The string `updateBattery` stores in `battery_state` is the unknown
      status's exactly when the high nibble of byte 53 is missing from the
      table. */
  lemma BatteryNameUnknown(data: seq<int>)
    requires Covers(data, 53)
    ensures UpdateBattery(data).state.Name() == "POWER_SUPPLY_STATUS_UNKNOWN"
      <==> data[53] / 16 !in {0x0, 0x1, 0x2, 0xa, 0xb, 0xf}
  {
    var st := UpdateBattery(data).state;
    if st != Unknown {
      assert |st.Name()| != |Unknown.Name()|;
    }
  }
  /** Decoding a report whose high nibble of byte 53 is a status's code
      gives back that status, whatever the low nibble. */
  lemma BatteryCodeRoundTrip(st: BatteryStatus, low: int)
    requires st != Unknown && 0 <= low < 16
    ensures UpdateBattery(seq(54, i => if i == 53 then st.Code() * 16 + low else 0)).state == st
  {
    var data := seq(54, i => if i == 53 then st.Code() * 16 + low else 0);
    assert data[53] / 16 == st.Code();
  }

  /* ---------------------------------------------------------------- *
   *  Motion sensors                                                  *
   * ---------------------------------------------------------------- */

  /** The signed little-endian 16-bit value in bytes k and k + 1. */
  function Int16At(data: seq<int>, k: nat): (v: int)
    requires Covers(data, k + 1)
    ensures v == data[k] + 256 * data[k + 1] - (if data[k + 1] >= 128 then 65536 else 0)
    ensures -32768 <= v <= 32767
  {
    Int16FromBytes(data[k], data[k + 1]);
    FromBytesLESigned([data[k], data[k + 1]])
  }

  /** The sensor histories the driver keeps between reports. */
  datatype Sensors = Sensors(
    pitch: seq<int>, yaw: seq<int>, roll: seq<int>,
    x: seq<int>, y: seq<int>, z: seq<int>,
    touchpadX: seq<int>, touchpadY: seq<int>,
    touchpad1X: seq<int>, touchpad1Y: seq<int>)

  /** All histories empty, as after `__init__`. */
  const InitialSensors := Sensors([], [], [], [], [], [], [], [], [], [])

  /** The histories stay in step and within their bounds. */
  predicate Bounded(s: Sensors, nGyro: int, nAccel: int, nTouch: int)
  {
    && |s.pitch| == |s.yaw| == |s.roll| <= nGyro
    && |s.x| == |s.y| == |s.z| <= nAccel
    && |s.touchpadX| == |s.touchpadY| <= nTouch
    && |s.touchpad1X| == |s.touchpad1Y| <= nTouch
  }

  /** History bounds: `updateGyrometer` and `updateAccelerometer` keep 20
      entries by default and `updateTouchpad` keeps 1; the read-all sequence
      passes 1 to all three. */
  const DefaultMotionHistory := 20
  const DefaultTouchHistory := 1
  const ReadAllHistory := 1

  /** `updateGyrometer(n)`: pitch, yaw and roll from bytes 22..27 appended
      to their histories, the oldest of each dropped once pitch holds more
      than n (n defaults to 20; the read-all sequence passes 1). */
  function UpdateGyrometer(s: Sensors, data: seq<int>, n: int): (s': Sensors)
    requires Covers(data, 27)
    ensures s'.(pitch := s.pitch, yaw := s.yaw, roll := s.roll) == s
    ensures s'.pitch == SlidingWindow.Push(s.pitch, Int16At(data, 22), n)
    ensures |s.pitch| == |s.yaw| == |s.roll| ==>
      && s'.yaw == SlidingWindow.Push(s.yaw, Int16At(data, 24), n)
      && s'.roll == SlidingWindow.Push(s.roll, Int16At(data, 26), n)
      && |s'.pitch| == |s'.yaw| == |s'.roll|
  {
    var h := SlidingWindow.PushTogether(
      [s.pitch, s.yaw, s.roll], [Int16At(data, 22), Int16At(data, 24), Int16At(data, 26)], n);
    s.(pitch := h[0], yaw := h[1], roll := h[2])
  }

  /** `updateAccelerometer(n)`: X, Y and Z from bytes 16..21, kept like the
      gyroscope history. */
  function UpdateAccelerometer(s: Sensors, data: seq<int>, n: int): (s': Sensors)
    requires Covers(data, 21)
    ensures s'.(x := s.x, y := s.y, z := s.z) == s
    ensures s'.x == SlidingWindow.Push(s.x, Int16At(data, 16), n)
    ensures |s.x| == |s.y| == |s.z| ==>
      && s'.y == SlidingWindow.Push(s.y, Int16At(data, 18), n)
      && s'.z == SlidingWindow.Push(s.z, Int16At(data, 20), n)
      && |s'.x| == |s'.y| == |s'.z|
  {
    var h := SlidingWindow.PushTogether(
      [s.x, s.y, s.z], [Int16At(data, 16), Int16At(data, 18), Int16At(data, 20)], n);
    s.(x := h[0], y := h[1], z := h[2])
  }

  /* ---------------------------------------------------------------- *
   *  Touchpad                                                        *
   * ---------------------------------------------------------------- */

  /** One finger on the touchpad: 12-bit coordinates. */
  datatype Touch = Touch(active: bool, x: int, y: int)

  /** The nested `update_touchpad(offset)`: the finger is down while bit 7 of
      the first byte is clear; x is the low nibble of byte offset + 2 above
      byte offset + 1, y is byte offset + 3 above the high nibble of byte
      offset + 2. */
  function TouchAt(data: seq<int>, offset: nat): (t: Touch)
    requires Covers(data, offset + 3)
    ensures t.active <==> data[offset] < 128
    ensures t.x == data[offset + 2] % 16 * 256 + data[offset + 1]
    ensures t.y == data[offset + 3] * 16 + data[offset + 2] / 16
    ensures 0 <= t.x <= 4095 && 0 <= t.y <= 4095
  {
    ActiveBit(data[offset]);
    LowNibbleAbove(data[offset + 1], data[offset + 2]);
    HighNibbleBelow(data[offset + 2], data[offset + 3]);
    var isActive := And(data[offset], 0x80) == 0;
    var x := Or(ShiftLeft(And(data[offset + 2], 0x0f), 8), data[offset + 1]);
    var y := Or(ShiftLeft(data[offset + 3], 4), ShiftRight(And(data[offset + 2], 0xf0), 4));
    Touch(isActive, x, y)
  }

  /** `b & 0x80 == 0` holds exactly for bytes below 128. */
  lemma ActiveBit(b: int)
    requires IsByte(b)
    ensures (And(b, 0x80) == 0) <==> b < 128
  {
    assert Pow2(7) == 128;
    AndPow2(b, 7);
    ByteTopBit(b);
  }

  /** `((mid & 0x0f) << 8) | lo` is the 12-bit value with mid's low nibble
      above lo. */
  lemma LowNibbleAbove(lo: int, mid: int)
    requires IsByte(lo) && IsByte(mid)
    ensures Or(ShiftLeft(And(mid, 0x0f), 8), lo) == mid % 16 * 256 + lo
  {
    AndLowNibble(mid);
    var n := mid % 16;
    assert Pow2(8) == 256;
    ShiftLeftIsProduct(n, 8);
    OrShifted(n, lo, 8);
  }

  /** `(hi << 4) | ((mid & 0xf0) >> 4)` is the 12-bit value with hi above
      mid's high nibble. */
  lemma HighNibbleBelow(mid: int, hi: int)
    requires IsByte(mid) && IsByte(hi)
    ensures Or(ShiftLeft(hi, 4), ShiftRight(And(mid, 0xf0), 4)) == hi * 16 + mid / 16
  {
    HighNibble(mid);
    assert Pow2(4) == 16;
    ShiftLeftIsProduct(hi, 4);
    OrShifted(hi, mid / 16, 4);
  }

  /** The four report bytes that carry a finger (the inverse of TouchAt). */
  function TouchBytes(t: Touch): (bs: seq<int>)
    requires 0 <= t.x <= 4095 && 0 <= t.y <= 4095
    ensures |bs| == 4 && IsBytes(bs)
  {
    [if t.active then 0 else 128, t.x % 256, t.x / 256 + 16 * (t.y % 16), t.y / 16]
  }

  lemma TouchRoundTrip(t: Touch)
    requires 0 <= t.x <= 4095 && 0 <= t.y <= 4095
    ensures TouchAt(TouchBytes(t), 0) == t
  {
    var bs := TouchBytes(t);
    assert bs[2] % 16 == t.x / 256 && bs[2] / 16 == t.y % 16;
  }

  /** `updateTouchpad(n)`: fingers 0 and 1 are read at offsets 33 and 37,
      their coordinates appended to the finger's histories, each finger's
      pair dropping its oldest entry once its x history holds more than n
      (n defaults to 1). */
  function UpdateTouchpad(s: Sensors, data: seq<int>, n: int): (r: (Sensors, Touch, Touch))
    requires Covers(data, 40)
    ensures r.1 == TouchAt(data, 33) && r.2 == TouchAt(data, 37)
    ensures r.0.(touchpadX := s.touchpadX, touchpadY := s.touchpadY,
                 touchpad1X := s.touchpad1X, touchpad1Y := s.touchpad1Y) == s
    ensures r.0.touchpadX == SlidingWindow.Push(s.touchpadX, r.1.x, n)
    ensures r.0.touchpad1X == SlidingWindow.Push(s.touchpad1X, r.2.x, n)
    ensures |s.touchpadX| == |s.touchpadY| ==>
      r.0.touchpadY == SlidingWindow.Push(s.touchpadY, r.1.y, n)
    ensures |s.touchpad1X| == |s.touchpad1Y| ==>
      r.0.touchpad1Y == SlidingWindow.Push(s.touchpad1Y, r.2.y, n)
  {
    var f0 := TouchAt(data, 33);
    var f1 := TouchAt(data, 37);
    var h0 := SlidingWindow.PushTogether([s.touchpadX, s.touchpadY], [f0.x, f0.y], n);
    var h1 := SlidingWindow.PushTogether([s.touchpad1X, s.touchpad1Y], [f1.x, f1.y], n);
    (s.(touchpadX := h0[0], touchpadY := h0[1], touchpad1X := h1[0], touchpad1Y := h1[1]), f0, f1)
  }

  /** The three history updates keep every history list in step with its
      partners and no longer than its bound. */
  lemma UpdatesKeepBounded(s: Sensors, data: seq<int>, nGyro: int, nAccel: int, nTouch: int)
    requires Covers(data, 40) && Bounded(s, nGyro, nAccel, nTouch)
    requires nGyro >= 0 && nAccel >= 0 && nTouch >= 0
    ensures Bounded(UpdateGyrometer(s, data, nGyro), nGyro, nAccel, nTouch)
    ensures Bounded(UpdateAccelerometer(s, data, nAccel), nGyro, nAccel, nTouch)
    ensures Bounded(UpdateTouchpad(s, data, nTouch).0, nGyro, nAccel, nTouch)
  {
  }

  /** The sensor part of `updateAll`: touchpad, accelerometer and gyrometer
      updated in that order, each keeping `ReadAllHistory` entries. From
      histories of at most that many entries, each history then holds
      exactly the newest reading. */
  function ReadAllSensors(s: Sensors, data: seq<int>): (s': Sensors)
    requires Covers(data, 40)
    requires Bounded(s, ReadAllHistory, ReadAllHistory, ReadAllHistory)
    ensures Bounded(s', ReadAllHistory, ReadAllHistory, ReadAllHistory)
    ensures s'.pitch == [Int16At(data, 22)] && s'.yaw == [Int16At(data, 24)]
      && s'.roll == [Int16At(data, 26)]
    ensures s'.x == [Int16At(data, 16)] && s'.y == [Int16At(data, 18)]
      && s'.z == [Int16At(data, 20)]
    ensures s'.touchpadX == [TouchAt(data, 33).x] && s'.touchpadY == [TouchAt(data, 33).y]
    ensures s'.touchpad1X == [TouchAt(data, 37).x] && s'.touchpad1Y == [TouchAt(data, 37).y]
  {
    var t := UpdateTouchpad(s, data, ReadAllHistory).0;
    var a := UpdateAccelerometer(t, data, ReadAllHistory);
    var g := UpdateGyrometer(a, data, ReadAllHistory);
    SlidingWindow.PushOne(s.touchpadX, TouchAt(data, 33).x);
    SlidingWindow.PushOne(s.touchpadY, TouchAt(data, 33).y);
    SlidingWindow.PushOne(s.touchpad1X, TouchAt(data, 37).x);
    SlidingWindow.PushOne(s.touchpad1Y, TouchAt(data, 37).y);
    SlidingWindow.PushOne(s.x, Int16At(data, 16));
    SlidingWindow.PushOne(s.y, Int16At(data, 18));
    SlidingWindow.PushOne(s.z, Int16At(data, 20));
    SlidingWindow.PushOne(s.pitch, Int16At(data, 22));
    SlidingWindow.PushOne(s.yaw, Int16At(data, 24));
    SlidingWindow.PushOne(s.roll, Int16At(data, 26));
    g
  }
}

=== FILE: dualsense_output.dfy ===
/** The 64-byte USB output report of the DualSense driver: created on first
    use with a fixed header, then filled in by fixed-offset byte stores for
    the rumble motors, the lights and the adaptive triggers. Sending the
    report to the device is not part of this model. */
module DualSenseOutput {
  import opened Wrappers
  import opened Bits

  const ReportLength := 64

  /** The writers' default arguments: `rumble()` drives both motors at 100,
      `lights()` shows green (0, 100, 0) at brightness 1 with mode and pulse
      0, and `set_trigger()` selects the calibration mode 0xFC. */
  const DefaultIntensity := 100
  const DefaultBrightness := 1
  const DefaultRgb: seq<int> := [0, 100, 0]
  const DefaultTriggerMode := 0xFC

  /** `0x1 | 0x2 | 0x4 | 0x10 | 0x40`, the "what is being sent" flags. */
  function ContentFlags(): nat
  {
    Or(Or(Or(Or(0x1, 0x2), 0x4), 0x10), 0x40)
  }

  /** `0xff | 0x4 | 0x08`, the flags byte `set_trigger` stores. */
  function TriggerFlags(): nat
  {
    Or(Or(0xff, 0x4), 0x08)
  }

  /** The flag expressions evaluate to the byte values the reports store,
      0x57 and 0xff, which is what InitOutReport and SetTrigger write. */
  lemma FlagValues()
    ensures ContentFlags() == 0x57
    ensures TriggerFlags() == 0xff
  {
    ContentFlagsValue();
    TriggerFlagsValue();
  }

  lemma ContentFlagsValue()
    ensures ContentFlags() == 0x57
  {
    assert Or(1, 2) == 3 && Or(3, 4) == 7 && Or(7, 0x10) == 0x17 && Or(0x17, 0x40) == 0x57;
  }

  lemma TriggerFlagsValue()
    ensures TriggerFlags() == 0xff
  {
    OrFourIntoByte();
    OrEightIntoByte();
  }

  /** `0xff | 0x4` adds nothing: bit 2 of 0xff is already set. */
  lemma OrFourIntoByte()
    ensures Or(0xff, 0x4) == 0xff
  {
    assert Pow2(2) == 4;
    assert BitSet(0xff, 2) by {
      assert BitSet(255, 2) == BitSet(127, 1) == BitSet(63, 0);
    }
    AndPow2(0xff, 2);
    OrSubsumed(0xff, 0x4);
  }

  /** `0xff | 0x8` adds nothing either: bit 3 is set too. */
  lemma OrEightIntoByte()
    ensures Or(0xff, 0x8) == 0xff
  {
    assert Pow2(3) == 8;
    assert BitSet(0xff, 3) by {
      assert BitSet(255, 3) == BitSet(127, 2) == BitSet(63, 1) == BitSet(31, 0);
    }
    AndPow2(0xff, 3);
    OrSubsumed(0xff, 0x8);
  }

  /** `init_outReport` on the current report: builds the 64-byte header
      report only when there is none yet. */
  function InitOutReport(report: Option<seq<int>>): (r: Option<seq<int>>)
    ensures r.Some?
    ensures report.Some? ==> r == report
    ensures report.None? ==>
      && |r.value| == ReportLength
      && r.value[0] == 0x02 && r.value[1] == 0xff && r.value[2] == 0x57
      && (forall i :: 3 <= i < ReportLength ==> r.value[i] == 0)
  {
    if report.None? then
      Some(seq(ReportLength, i => 0)[0 := 0x02][1 := 0xff][2 := 0x57])
    else report
  }

  lemma InitOutReportIdempotent(report: Option<seq<int>>)
    ensures InitOutReport(InitOutReport(report)) == InitOutReport(report)
    ensures IsBytes(InitOutReport(None).value)
  {
  }

  /** A report the writer at highest index k can store into: none yet, or
      one that reaches index k (a shorter one is an index error). */
  predicate Writable(report: Option<seq<int>>, k: nat)
  {
    report.None? || k < |report.value|
  }

  /** `rumble`: the right motor in byte 3 and the left in byte 4 when L and
      R differ, otherwise `intensity` in both. */
  function Rumble(report: Option<seq<int>>, intensity: int, l: int, r: int): (out: seq<int>)
    requires Writable(report, 4)
    ensures var base := InitOutReport(report).value;
      && |out| == |base|
      && (forall i :: 0 <= i < |out| && i != 3 && i != 4 ==> out[i] == base[i])
    ensures l != r ==> out[3] == r && out[4] == l
    ensures l == r ==> out[3] == intensity && out[4] == intensity
    ensures IsBytes(InitOutReport(report).value) && IsByte(intensity) && IsByte(l) && IsByte(r) ==>
      IsBytes(out)
  {
    var base := InitOutReport(report).value;
    if l != r then base[3 := r][4 := l] else base[3 := intensity][4 := intensity]
  }

  /** `lights`: mode in byte 39, pulse, brightness and the player number 4
      in bytes 42..44, and `rgb` stored over the slice 45:48 (a Python slice
      assignment, which changes the report's length when rgb does not hold
      three values). */
  function Lights(report: Option<seq<int>>, brightness: int, rgb: seq<int>, mode: int, pulse: int): (out: seq<int>)
    requires Writable(report, 44)
    ensures var base := InitOutReport(report).value;
      && |out| == |base| - (Min(48, |base|) - 45) + |rgb|
      && (|base| == ReportLength && |rgb| == 3 ==> |out| == ReportLength)
      && (forall i :: 0 <= i < 45 && i != 39 && !(42 <= i <= 44) ==> out[i] == base[i])
      && out[39] == mode && out[42] == pulse && out[43] == brightness && out[44] == 4
      && out[45..45 + |rgb|] == rgb
      && out[45 + |rgb|..] == base[Min(48, |base|)..]
    ensures var base := InitOutReport(report).value;
      |base| >= 48 && |rgb| == 3 ==>
        forall i :: 0 <= i < |out| && i != 39 && !(42 <= i <= 47) ==> out[i] == base[i]
    ensures (IsBytes(InitOutReport(report).value) && IsBytes(rgb)
             && IsByte(brightness) && IsByte(mode) && IsByte(pulse)) ==> IsBytes(out)
  {
    var base := InitOutReport(report).value;
    var stored := base[39 := mode][42 := pulse][43 := brightness][44 := 4];
    stored[..45] + rgb + stored[Min(48, |stored|)..]
  }

  function Min(a: int, b: int): int
  {
    if a < b then a else b
  }

  /** The bytes of one trigger's effect block starting at `start`: the mode
      byte, intensities 1..5 from start + 2 and intensity 6 at start + 9. */
  predicate InBlock(i: int, start: int)
  {
    i == start || start + 2 <= i <= start + 6 || i == start + 9
  }

  /** The bytes `set_trigger` stores into: the two flag bytes and the right
      (byte 11) and left (byte 22) trigger blocks. */
  predicate TriggerByte(i: int)
  {
    i == 1 || i == 2 || InBlock(i, 11) || InBlock(i, 22)
  }

  /** `set_trigger`: the same effect on both adaptive triggers, the right
      trigger's block starting at byte 11 and the left's at byte 22; the mode
      is stored first, then intensities 1..5 and 6 (intensity 0 is never
      used; absent intensities are seven zeros). */
  function SetTrigger(report: Option<seq<int>>, mode: int, intensities: Option<seq<int>>): (out: seq<int>)
    requires Writable(report, 31)
    requires intensities.None? || |intensities.value| >= 7
    ensures var base := InitOutReport(report).value;
      && |out| == |base|
      && (forall i :: 0 <= i < |out| && !TriggerByte(i) ==> out[i] == base[i])
    ensures out[1] == 0xff && out[2] == 0x57
    ensures var ints := intensities.GetOr([0, 0, 0, 0, 0, 0, 0]);
      forall o :: InBlock(o, 0) ==> out[11 + o] == BlockValue(o, mode, ints) == out[22 + o]
    ensures (IsBytes(InitOutReport(report).value) && IsByte(mode)
             && (intensities.None? || IsBytes(intensities.value))) ==> IsBytes(out)
  {
    var base := InitOutReport(report).value;
    var ints := intensities.GetOr([0, 0, 0, 0, 0, 0, 0]);
    var flagged := base[1 := 0xff][2 := 0x57];
    var right := TriggerBlock(flagged, 11, mode, ints);
    TriggerBlock(right, 22, mode, ints)
  }

  /** One trigger's effect block starting at byte `start`: the mode, then
      intensities 1..5 from byte start + 2 and intensity 6 at start + 9. */
  function TriggerBlock(report: seq<int>, start: nat, mode: int, ints: seq<int>): (out: seq<int>)
    requires start + 9 < |report| && |ints| >= 7
    ensures |out| == |report|
    ensures forall i :: 0 <= i < |out| && !InBlock(i, start) ==> out[i] == report[i]
    ensures forall i :: InBlock(i, start) ==> out[i] == BlockValue(i - start, mode, ints)
    ensures IsBytes(report) && IsByte(mode) && IsBytes(ints) ==> IsBytes(out)
  {
    report[start := mode][start + 2 := ints[1]][start + 3 := ints[2]][start + 4 := ints[3]]
          [start + 5 := ints[4]][start + 6 := ints[5]][start + 9 := ints[6]]
  }

  /** The byte a trigger block holds at offset o: the mode at 0, intensity
      o - 1 at offsets 2..6 and intensity 6 at offset 9. */
  function BlockValue(o: int, mode: int, ints: seq<int>): int
    requires |ints| >= 7 && (o == 0 || 2 <= o <= 6 || o == 9)
  {
    if o == 0 then mode else if o == 9 then ints[6] else ints[o - 1]
  }

  /** The writers called with their default arguments on a fresh report:
      both motors at 100, a green light at brightness 1, and both triggers
      in calibration mode with zero intensities. */
  lemma DefaultWrites()
    ensures var out := Rumble(None, DefaultIntensity, DefaultIntensity, DefaultIntensity);
      out[3] == 100 && out[4] == 100 && IsBytes(out)
    ensures var out := Lights(None, DefaultBrightness, DefaultRgb, 0, 0);
      && |out| == ReportLength && out[43] == 1 && out[45..48] == [0, 100, 0] && IsBytes(out)
    ensures var out := SetTrigger(None, DefaultTriggerMode, None);
      && out[11] == 0xFC && out[22] == 0xFC
      && (forall i :: 12 <= i <= 20 || 23 <= i <= 31 ==> out[i] == 0)
      && IsBytes(out)
  {
  }

  /** Rumble and lights store into disjoint bytes, so the order in which a
      caller applies them does not matter. */
  lemma RumbleLightsCommute(report: Option<seq<int>>, intensity: int, l: int, r: int,
                            brightness: int, rgb: seq<int>, mode: int, pulse: int)
    requires report.None? || |report.value| == ReportLength
    requires |rgb| == 3
    ensures Lights(Some(Rumble(report, intensity, l, r)), brightness, rgb, mode, pulse)
         == Rumble(Some(Lights(report, brightness, rgb, mode, pulse)), intensity, l, r)
  {
    var a := Lights(Some(Rumble(report, intensity, l, r)), brightness, rgb, mode, pulse);
    var b := Rumble(Some(Lights(report, brightness, rgb, mode, pulse)), intensity, l, r);
    assert |a| == |b|;
    forall i | 0 <= i < |a|
      ensures a[i] == b[i]
    {
    }
  }
}

=== FILE: robot.dfy ===
/** The non-graphical parts of the robot helpers: a cyclic selector over a
    vector of values, the two-link robot's selector over its joint angles,
    and the closed outline of an axis-aligned rectangle obstacle. */
module Robot {

  /* ---------------------------------------------------------------- *
   *  CyclicVariable                                                  *
   * ---------------------------------------------------------------- */

  /** An index into `rangeVector` that wraps around at both ends. */
  datatype CyclicVariable<T> = CyclicVariable(rangeVector: seq<T>, index: int)

  /** The index addresses an element of the vector. */
  predicate Valid<T>(c: CyclicVariable<T>)
  {
    0 <= c.index < |c.rangeVector|
  }

  /** Python's `a % b` for a positive divisor: the floor modulus, which is
      never negative. For b > 0 Dafny's `/` and `%` agree with Python's
      `//` and `%`. */
  function PyMod(a: int, b: int): (r: int)
    requires b > 0
    ensures 0 <= r < b
    ensures a == b * (a / b) + r
  {
    a % b
  }

  /** `CyclicVariable(range_vector)`: starts at index 0. */
  function New<T>(rangeVector: seq<T>): CyclicVariable<T>
  {
    CyclicVariable(rangeVector, 0)
  }

  /** A new selector can be read exactly when its vector is non-empty, and
      then it reads the first element. */
  lemma NewValid<T>(rangeVector: seq<T>)
    ensures Valid(New(rangeVector)) <==> |rangeVector| > 0
    ensures |rangeVector| > 0 ==> Value(New(rangeVector)) == rangeVector[0]
  {
  }

  /** `get_value`: the element the index selects (an index error on an
      empty vector, which no valid selector has). */
  function Value<T>(c: CyclicVariable<T>): (v: T)
    requires Valid(c)
    ensures v == c.rangeVector[c.index]
  {
    c.rangeVector[c.index]
  }

  /** `increment`: one step forward, from the last index back to 0. An empty
      vector is a modulo-by-zero error in the Python code. */
  function Increment<T>(c: CyclicVariable<T>): (r: CyclicVariable<T>)
    requires |c.rangeVector| > 0
    ensures Valid(r) && r.rangeVector == c.rangeVector
    ensures 0 <= c.index < |c.rangeVector| - 1 ==> r.index == c.index + 1
    ensures c.index == |c.rangeVector| - 1 ==> r.index == 0
  {
    c.(index := PyMod(c.index + 1, |c.rangeVector|))
  }

  /** `decrement`: one step back, from index 0 to the last index. */
  function Decrement<T>(c: CyclicVariable<T>): (r: CyclicVariable<T>)
    requires |c.rangeVector| > 0
    ensures Valid(r) && r.rangeVector == c.rangeVector
    ensures 0 < c.index < |c.rangeVector| ==> r.index == c.index - 1
    ensures c.index == 0 ==> r.index == |c.rangeVector| - 1
  {
    c.(index := PyMod(c.index - 1, |c.rangeVector|))
  }

  /** Stepping forward and then back, or back and then forward, returns to
      the same selector. */
  lemma IncrementDecrementInverse<T>(c: CyclicVariable<T>)
    requires Valid(c)
    ensures Decrement(Increment(c)) == c
    ensures Increment(Decrement(c)) == c
  {
  }

  /** k increments in a row. */
  function IncrementN<T>(c: CyclicVariable<T>, k: nat): (r: CyclicVariable<T>)
    requires |c.rangeVector| > 0
    ensures r.rangeVector == c.rangeVector
    ensures k > 0 || Valid(c) ==> Valid(r)
  {
    if k == 0 then c else Increment(IncrementN(c, k - 1))
  }

  /** Up to one full turn, k increments add k to the index, wrapping once
      past the end. */
  lemma {:induction false} IncrementNIndex<T>(c: CyclicVariable<T>, k: nat)
    requires Valid(c) && k <= |c.rangeVector|
    ensures IncrementN(c, k).rangeVector == c.rangeVector
    ensures IncrementN(c, k).index ==
      c.index + k - (if c.index + k >= |c.rangeVector| then |c.rangeVector| else 0)
  {
    if k > 0 {
      IncrementNIndex(c, k - 1);
    }
  }

  /** As many increments as the vector has elements bring the selector back
      to where it started. */
  lemma FullTurn<T>(c: CyclicVariable<T>)
    requires Valid(c)
    ensures IncrementN(c, |c.rangeVector|) == c
  {
    IncrementNIndex(c, |c.rangeVector|);
  }

  /** Stepping a new selector forward reads its vector in order: after j
      increments it reads element j. */
  lemma ReadsInOrder<T>(rangeVector: seq<T>)
    requires |rangeVector| > 0
    ensures forall j :: 0 <= j < |rangeVector| ==>
      Value(IncrementN(New(rangeVector), j)) == rangeVector[j]
  {
    forall j | 0 <= j < |rangeVector|
      ensures Value(IncrementN(New(rangeVector), j)) == rangeVector[j]
    {
      IncrementNIndex(New(rangeVector), j);
    }
  }

  /* ---------------------------------------------------------------- *
   *  two2_robot                                                      *
   * ---------------------------------------------------------------- */

  /** The planar two-link robot: link lengths, joint angles, and a selector
      over the list of joint angles taken at construction. */
  datatype TwoLinkRobot = TwoLinkRobot(
    l1: real, l2: real, th1: real, th2: real,
    thetas: seq<real>, th: CyclicVariable<real>)

  /** `two2_robot(L1, L2)`: both joints at angle 0, and the selector over
      the two-element list `[th1, th2]`. */
  function NewTwoLinkRobot(l1: real, l2: real): TwoLinkRobot
  {
    var thetas := [0.0, 0.0];
    TwoLinkRobot(l1, l2, 0.0, 0.0, thetas, New(thetas))
  }

  /** The robot's selector is over two zero angles and alternates between
      its two positions, reading 0 at each. */
  lemma TwoLinkSelector(l1: real, l2: real)
    ensures var th := NewTwoLinkRobot(l1, l2).th;
      && Valid(th) && |th.rangeVector| == 2
      && Value(th) == 0.0 && Value(Increment(th)) == 0.0
      && Increment(th).index == 1 && Increment(Increment(th)) == th
  {
  }

  /* ---------------------------------------------------------------- *
   *  TwoD_objects.rectangle                                          *
   * ---------------------------------------------------------------- */

  /** `rectangle(x, y, w, h)`: the x and y coordinates of the closed outline
      through the corners (x, y), (x + w, y), (x + w, y + h), (x, y + h) and
      back to (x, y). */
  function Rectangle(x: real, y: real, w: real, h: real): (r: (seq<real>, seq<real>))
    ensures |r.0| == 5 && |r.1| == 5
    ensures r.0[0] == x && r.1[0] == y
    ensures r.0[4] == r.0[0] && r.1[4] == r.1[0]
    ensures r.0[1] - r.0[0] == w && r.1[1] - r.1[0] == 0.0
    ensures r.0[2] - r.0[1] == 0.0 && r.1[2] - r.1[1] == h
    ensures r.0[3] - r.0[2] == -w && r.1[3] - r.1[2] == 0.0
    ensures r.0[4] - r.0[3] == 0.0 && r.1[4] - r.1[3] == -h
  {
    ([x, x + w, x + w, x, x], [y, y, y + h, y + h, y])
  }

  /** Twice the signed area enclosed by a closed polyline (the shoelace
      formula): positive for a counter-clockwise outline. */
  function TwiceSignedArea(xs: seq<real>, ys: seq<real>): real
    requires |xs| == |ys|
    decreases |xs|
  {
    if |xs| < 2 then 0.0
    else (xs[0] * ys[1] - xs[1] * ys[0]) + TwiceSignedArea(xs[1..], ys[1..])
  }

  /** The outline runs counter-clockwise for positive w and h and encloses
      exactly w * h. */
  lemma RectangleArea(x: real, y: real, w: real, h: real)
    ensures TwiceSignedArea(Rectangle(x, y, w, h).0, Rectangle(x, y, w, h).1) == 2.0 * w * h
  {
    var xs, ys := Rectangle(x, y, w, h).0, Rectangle(x, y, w, h).1;
    assert TwiceSignedArea(xs[4..], ys[4..]) == 0.0;
    assert TwiceSignedArea(xs[3..], ys[3..]) == x * y - x * (y + h);
    assert TwiceSignedArea(xs[2..], ys[2..]) == (x + w) * (y + h) - x * (y + h) + x * y - x * (y + h);
    assert TwiceSignedArea(xs[1..], ys[1..]) == (x + w) * (y + h) - (x + w) * y + (x + w) * (y + h) - x * (y + h) + x * y - x * (y + h);
    assert xs[1..][1..] == xs[2..] && ys[1..][1..] == ys[2..];
  }
}

=== FILE: rrt.dfy ===
/** The bookkeeping of the rapidly-exploring random tree: the node table and
    its two coordinate lists, uniform sampling, the nearest-node search, the
    randomised step of nominal length min(max_step, d) and the (always
    accepting) collision step, plus the Halton radical inverse. Random draws
    are inputs here. */
module Rrt {
  import opened Wrappers
  import opened Vectors

  /** The planner object. `xSample` and `xNew` are the scratch attributes the
      sampling and stepping calls leave behind (None until first set). */
  datatype Tree = Tree(
    n: nat, start: Vector, goal: Vector,
    nodes: seq<Vector>, nodeX: seq<real>, nodeY: seq<real>,
    edges: seq<(int, int)>,
    xSample: Option<Vector>, xNew: Option<Vector>)

  /** The node table and the two coordinate lists grow together: entry i of
      `nodeX` and `nodeY` is the first and second coordinate of node i. */
  predicate CoordinatesMatch(t: Tree)
  {
    && |t.nodes| == |t.nodeX| == |t.nodeY|
    && forall i :: 0 <= i < |t.nodes| ==>
         |t.nodes[i]| >= 2 && t.nodeX[i] == t.nodes[i][0] && t.nodeY[i] == t.nodes[i][1]
  }

  /** A tree as construction and collision steps keep it: rooted at the
      start, every node of dimension n. */
  predicate Valid(t: Tree)
  {
    && CoordinatesMatch(t)
    && |t.nodes| > 0 && t.nodes[0] == t.start
    && t.n == |t.start|
    && forall i :: 0 <= i < |t.nodes| ==> |t.nodes[i]| == t.n
  }

  /** `RRT(start, goal)`: one node, the start; dimension `len(start)`; no
      edges. The start needs two coordinates (`start[1]`). */
  function New(start: Vector, goal: Vector): (t: Tree)
    requires |start| >= 2
    ensures Valid(t) && |t.nodes| == 1 && t.n == |start|
    ensures t.start == start && t.nodes == [start]
    ensures t.nodeX == [start[0]] && t.nodeY == [start[1]]
    ensures t.goal == goal && t.edges == [] && t.xSample.None? && t.xNew.None?
  {
    Tree(|start|, start, goal, [start], [start[0]], [start[1]], [], None, None)
  }

  /** `get_x_sample`: `6 * u` for a draw u, each coordinate uniform in
      [-1, 1); the sample is also kept in `xSample`. */
  function GetXSample(t: Tree, u: Vector): (r: (Tree, Vector))
    requires |u| == t.n
    requires forall i :: 0 <= i < |u| ==> -1.0 <= u[i] < 1.0
    ensures |r.1| == t.n
    ensures forall i :: 0 <= i < |r.1| ==> -6.0 <= r.1[i] < 6.0 && r.1[i] / 6.0 == u[i]
    ensures r.0 == t.(xSample := Some(r.1))
  {
    var sample := Scale(6.0, u);
    (t.(xSample := Some(sample)), sample)
  }

  /** `get_nearest_node`: the index of a stored node closest to the sample,
      the first one among equally close nodes (numpy's argmin). Comparing
      squared distances selects the same index as comparing distances. */
  method GetNearestNode(t: Tree, sample: Vector) returns (k: nat)
    requires |t.nodes| > 0
    requires forall i :: 0 <= i < |t.nodes| ==> |t.nodes[i]| == |sample|
    ensures k < |t.nodes|
    ensures forall j :: 0 <= j < |t.nodes| ==> SqDist(t.nodes[k], sample) <= SqDist(t.nodes[j], sample)
    ensures forall j :: 0 <= j < k ==> SqDist(t.nodes[j], sample) > SqDist(t.nodes[k], sample)
  {
    k := 0;
    var best := SqDist(t.nodes[0], sample);
    var i := 1;
    while i < |t.nodes|
      invariant 1 <= i <= |t.nodes| && k < i
      invariant best == SqDist(t.nodes[k], sample)
      invariant forall j :: 0 <= j < i ==> best <= SqDist(t.nodes[j], sample)
      invariant forall j :: 0 <= j < k ==> SqDist(t.nodes[j], sample) > best
    {
      var d := SqDist(t.nodes[i], sample);
      if d < best {
        k, best := i, d;
      }
      i := i + 1;
    }
  }

  /** The step length of `get_x_new`: `min(max_step, distance)` times the
      normally distributed noise factor. */
  function StepSize(maxStep: real, d: real, noise: real): real
  {
    (if maxStep < d then maxStep else d) * noise
  }

  const DefaultMaxStep := 0.888
  /** Mean and standard deviation of the noise factor's normal distribution. */
  const NoiseMean := 0.777
  const NoiseStdDev := (0.9 - 0.5) / (2.0 * 0.675)

  /** `get_x_new`: moves from `xNearest` toward `xSample` by the step size,
      given the distance d between them (d * d is the squared distance; d = 0
      divides by zero in the Python code). The result is also kept in `xNew`. */
  function GetXNew(t: Tree, xNearest: Vector, xSample: Vector, maxStep: real, noise: real, d: real): (r: (Tree, Vector))
    requires |xNearest| == |xSample|
    requires d > 0.0 && d * d == SqDist(xSample, xNearest)
    ensures |r.1| == |xNearest|
    ensures r.0 == t.(xNew := Some(r.1))
    ensures forall i :: 0 <= i < |r.1| ==>
      r.1[i] - xNearest[i] == StepSize(maxStep, d, noise) / d * (xSample[i] - xNearest[i])
    ensures SqDist(r.1, xNearest) == StepSize(maxStep, d, noise) * StepSize(maxStep, d, noise)
    ensures noise == 1.0 && d <= maxStep ==> r.1 == xSample
    ensures 0.0 <= noise <= 1.0 && 0.0 <= maxStep ==>
      SqDist(r.1, xNearest) <= d * d && SqDist(r.1, xNearest) <= maxStep * maxStep
  {
    var stepSize := StepSize(maxStep, d, noise);
    var xNew := StepPoint(xNearest, xSample, stepSize, d);
    StepGeometry(xNearest, xSample, stepSize, d);
    StepBounds(maxStep, d, noise);
    (t.(xNew := Some(xNew)), xNew)
  }

  lemma SquareMonotone(a: real, b: real)
    requires 0.0 <= a <= b
    ensures a * a <= b * b
  {
    assert a * a <= a * b <= b * b;
  }

  /** With a noise factor in [0, 1] the step is no longer than the bound or
      the distance to the sample. */
  lemma StepBounds(maxStep: real, d: real, noise: real)
    requires d > 0.0
    ensures 0.0 <= noise <= 1.0 && 0.0 <= maxStep ==>
      && StepSize(maxStep, d, noise) * StepSize(maxStep, d, noise) <= d * d
      && StepSize(maxStep, d, noise) * StepSize(maxStep, d, noise) <= maxStep * maxStep
  {
    if 0.0 <= noise <= 1.0 && 0.0 <= maxStep {
      var m := if maxStep < d then maxStep else d;
      var s := StepSize(maxStep, d, noise);
      assert s == m * noise;
      assert m * noise <= m * 1.0;
      SquareMonotone(s, m);
      SquareMonotone(m, d);
      SquareMonotone(m, maxStep);
    }
  }

  /** The point `get_x_new` computes: with `vector = y - x` and
      `step = s * vector / d`, the point `x + step`. */
  function StepPoint(x: Vector, y: Vector, s: real, d: real): (p: Vector)
    requires |x| == |y| && d != 0.0
    ensures |p| == |x|
  {
    Add(x, Div(Scale(s, Sub(y, x)), d))
  }

  /** The geometry behind GetXNew's contract: the step point moves from x
      along the direction of y by s / d of the way, which is a displacement
      of length s when d is the distance from x to y. */
  lemma StepGeometry(x: Vector, y: Vector, s: real, d: real)
    requires |x| == |y|
    requires d > 0.0 && d * d == SqDist(y, x)
    ensures forall i :: 0 <= i < |x| ==> StepPoint(x, y, s, d)[i] - x[i] == s / d * (y[i] - x[i])
    ensures SqDist(StepPoint(x, y, s, d), x) == s * s
    ensures s == d ==> StepPoint(x, y, s, d) == y
  {
    StepDisplacement(x, y, s, d);
    StepLength(x, y, s, d);
    if s == d {
      var p := StepPoint(x, y, s, d);
      assert s / d == 1.0;
      assert forall i :: 0 <= i < |p| ==> p[i] == y[i];
    }
  }

  lemma StepLength(x: Vector, y: Vector, s: real, d: real)
    requires |x| == |y|
    requires d > 0.0 && d * d == SqDist(y, x)
    ensures SqDist(StepPoint(x, y, s, d), x) == s * s
  {
    StepDisplacement(x, y, s, d);
    var v := Sub(y, x);
    var p := StepPoint(x, y, s, d);
    var w := Scale(s / d, v);
    assert forall i :: 0 <= i < |w| ==> Sub(p, x)[i] == w[i];
    assert Sub(p, x) == w;
    ScaledNorm(s / d, v, s, d);
  }

  /** A vector of squared length d * d, scaled by s / d, has squared length
      s * s. */
  lemma ScaledNorm(q: real, v: Vector, s: real, d: real)
    requires d != 0.0 && q == s / d && SqNorm(v) == d * d
    ensures SqNorm(Scale(q, v)) == s * s
  {
    var n := SqNorm(v);
    var m := SqNorm(Scale(q, v));
    SqNormScale(q, v);
    assert m == q * q * n;
    ScaledLength(q, n, s, d);
    assert q * q * n == s * s;
  }

  lemma StepDisplacement(x: Vector, y: Vector, s: real, d: real)
    requires |x| == |y| && d != 0.0
    ensures forall i :: 0 <= i < |x| ==> StepPoint(x, y, s, d)[i] - x[i] == s / d * (y[i] - x[i])
  {
    var p := StepPoint(x, y, s, d);
    forall i | 0 <= i < |x|
      ensures p[i] - x[i] == s / d * (y[i] - x[i])
    {
      var v := Sub(y, x);
      assert p[i] == x[i] + s * v[i] / d;
      QuotientScale(s, v[i], d);
    }
  }

  lemma QuotientScale(s: real, v: real, d: real)
    requires d != 0.0
    ensures s * v / d == s / d * v
  {
  }

  lemma ScaledLength(q: real, n: real, s: real, d: real)
    requires d != 0.0 && q == s / d && n == d * d
    ensures q * q * n == s * s
  {
    assert q * d == s;
    assert q * q * (d * d) == (q * d) * (q * d);
  }

  /** `check_collision`: appends the stored `xNew` (never its argument) to the
      node table and its coordinates to the coordinate lists, and reports no
      collision. */
  function CheckCollision(t: Tree, xNewArgument: Vector): (r: (Tree, bool))
    requires t.xNew.Some? && |t.xNew.value| >= 2
    ensures r.1 == false
    ensures |r.0.nodes| == |t.nodes| + 1 && |r.0.nodeX| == |t.nodeX| + 1 && |r.0.nodeY| == |t.nodeY| + 1
    ensures r.0.nodes[..|t.nodes|] == t.nodes && r.0.nodes[|t.nodes|] == t.xNew.value
    ensures r.0.nodeX[..|t.nodeX|] == t.nodeX && r.0.nodeX[|t.nodeX|] == t.xNew.value[0]
    ensures r.0.nodeY[..|t.nodeY|] == t.nodeY && r.0.nodeY[|t.nodeY|] == t.xNew.value[1]
    ensures r.0.(nodes := t.nodes, nodeX := t.nodeX, nodeY := t.nodeY) == t
    ensures CoordinatesMatch(t) ==> CoordinatesMatch(r.0)
    ensures Valid(t) && |t.xNew.value| == t.n ==> Valid(r.0)
  {
    var x := t.xNew.value;
    (t.(nodes := t.nodes + [x], nodeX := t.nodeX + [x[0]], nodeY := t.nodeY + [x[1]]), false)
  }

  /** What `check_collision` appends does not depend on its argument. */
  lemma CheckCollisionIgnoresArgument(t: Tree, a: Vector, b: Vector)
    requires t.xNew.Some? && |t.xNew.value| >= 2
    ensures CheckCollision(t, a) == CheckCollision(t, b)
  {
  }

  /** One extension from a stored node k (step toward a sample, then the
      collision step) keeps the tree valid, adds exactly one node, and puts
      it at the step size's distance from node k. */
  lemma ExtendFromNode(t: Tree, k: nat, xSample: Vector, maxStep: real, noise: real, d: real)
    requires Valid(t) && k < |t.nodes| && |xSample| == t.n
    requires d > 0.0 && d * d == SqDist(xSample, t.nodes[k])
    ensures var stepped := GetXNew(t, t.nodes[k], xSample, maxStep, noise, d);
      var grown := CheckCollision(stepped.0, stepped.1).0;
      && Valid(grown)
      && |grown.nodes| == |t.nodes| + 1
      && grown.nodes[..|t.nodes|] == t.nodes
      && SqDist(grown.nodes[|t.nodes|], t.nodes[k])
           == StepSize(maxStep, d, noise) * StepSize(maxStep, d, noise)
  {
  }

  /* ---------------------------------------------------------------- *
   *  Halton sequence                                                 *
   * ---------------------------------------------------------------- */

  /** The base-b digits of i, least significant first; none for i <= 0. */
  function Digits(i: int, base: int): (ds: seq<int>)
    requires base >= 2
    ensures forall k :: 0 <= k < |ds| ==> 0 <= ds[k] < base
    decreases if i > 0 then i else 0
  {
    if i <= 0 then []
    else
      QuotientDecreases(i, base);
      [i % base] + Digits(i / base, base)
  }

  /** Digits read after the radix point: 0.d0 d1 d2 ... in base b. */
  function Mirror(ds: seq<int>, base: int): (r: real)
    requires base >= 2
    requires forall k :: 0 <= k < |ds| ==> 0 <= ds[k] < base
    ensures 0.0 <= r < 1.0
  {
    if |ds| == 0 then 0.0
    else
      var rest := Mirror(ds[1..], base);
      DivBelowOne(ds[0] as real + rest, base as real);
      (ds[0] as real + rest) / base as real
  }

  /** Reference definition of the van der Corput radical inverse: the base-b
      digits of index mirrored about the radix point. */
  function RadicalInverse(index: int, base: int): (r: real)
    requires base >= 2
    ensures 0.0 <= r < 1.0
  {
    Mirror(Digits(index, base), base)
  }

  /** The value the digits stand for: d0 + d1 * b + d2 * b^2 + ... */
  function FromDigits(ds: seq<int>, base: int): int
  {
    if |ds| == 0 then 0 else ds[0] + base * FromDigits(ds[1..], base)
  }

  /** The digits of a non-negative index give the index back. */
  lemma {:induction false} DigitsRoundTrip(i: int, base: int)
    requires base >= 2 && i >= 0
    ensures FromDigits(Digits(i, base), base) == i
    decreases i
  {
    if i > 0 {
      QuotientDecreases(i, base);
      var ds := Digits(i, base);
      assert ds[1..] == Digits(i / base, base);
      DigitsRoundTrip(i / base, base);
    }
  }

  lemma DivBelowOne(a: real, b: real)
    requires 0.0 <= a < b
    ensures 0.0 <= a / b < 1.0
  {
    assert a / b * b == a;
  }

  lemma QuotientPositive(a: real, b: real)
    requires a > 0.0 && b > 0.0
    ensures a / b > 0.0
  {
    assert a / b * b == a;
  }

  /** Dividing a sum by b splits into the two quotients, scaled. */
  lemma ScaledQuotient(f: real, b: real, digit: real, rest: real)
    requires b > 0.0
    ensures f * ((digit + rest) / b) == f / b * digit + f / b * rest
  {
    assert (digit + rest) / b == digit / b + rest / b;
    assert f * (digit / b) == f / b * digit;
    assert f * (rest / b) == f / b * rest;
  }

  /** `halton(index, base)`: the loop that divides `fraction` by the base
      and adds one digit per turn. A non-positive index skips the loop and
      gives 0 for any base; a positive one needs base >= 2, since base 1
      never terminates (the index never shrinks) and base 0 divides by
      zero. */
  method Halton(index: int, base: int) returns (result: real)
    requires base >= 2 || index <= 0
    ensures base >= 2 ==> result == RadicalInverse(index, base)
    ensures 0.0 <= result < 1.0
    ensures index <= 0 ==> result == 0.0
  {
    var fraction := 1.0;
    result := 0.0;
    var i := index;
    while i > 0
      invariant i > 0 ==> base >= 2
      invariant fraction > 0.0
      invariant base >= 2 ==>
        result + fraction * RadicalInverse(i, base) == RadicalInverse(index, base)
      invariant base < 2 ==> result == 0.0
      decreases i
    {
      QuotientDecreases(i, base);
      var f := fraction / base as real;
      var r := result + f * (i % base) as real;
      var q := i / base;
      HaltonStep(i, base, fraction, result, q, f, r);
      fraction, result, i := f, r, q;
    }
    if base >= 2 {
      assert Digits(i, base) == [];
    }
  }

  lemma QuotientDecreases(i: int, base: int)
    requires i > 0 && base >= 2
    ensures 0 <= i / base < i
  {
    assert i == base * (i / base) + i % base;
    assert base * (i / base) >= 2 * (i / base);
  }

  /** The last digit of a positive index comes first after the radix point. */
  lemma RadicalInverseDigit(i: int, base: int, q: int)
    requires base >= 2 && i > 0 && q == i / base
    ensures RadicalInverse(i, base) == ((i % base) as real + RadicalInverse(q, base)) / base as real
  {
    var ds := Digits(i, base);
    assert ds[1..] == Digits(q, base);
  }

  /** One turn of the halton loop moves one digit from the index into the
      result: with the new fraction f, result r and index q,
      `result + fraction * RadicalInverse(index)` is unchanged. */
  lemma HaltonStep(i: int, base: int, fraction: real, result: real, q: int, f: real, r: real)
    requires base >= 2 && i > 0 && fraction > 0.0 && q == i / base
    requires f == fraction / base as real && r == result + f * (i % base) as real
    ensures f > 0.0
    ensures result + fraction * RadicalInverse(i, base) == r + f * RadicalInverse(q, base)
  {
    RadicalInverseDigit(i, base, q);
    MoveDigit(result, fraction, base as real, (i % base) as real, RadicalInverse(q, base),
      RadicalInverse(i, base), f, r);
  }

  /** The real arithmetic of one halton step: with ri = (digit + rest) / b,
      f = fraction / b and r = result + f * digit, fraction * ri splits into
      f times each part. */
  lemma MoveDigit(result: real, fraction: real, b: real, digit: real, rest: real, ri: real,
                   f: real, r: real)
    requires fraction > 0.0 && b > 0.0
    requires ri == (digit + rest) / b
    requires f == fraction / b && r == result + f * digit
    ensures f > 0.0
    ensures result + fraction * ri == r + f * rest
  {
    QuotientPositive(fraction, b);
    ScaledQuotient(fraction, b, digit, rest);
  }

  /** The first base-2 values mirror the binary digits: 1 = 0b1 gives 0.1b,
      2 = 0b10 gives 0.01b, 3 = 0b11 gives 0.11b. */
  lemma HaltonBase2()
    ensures RadicalInverse(0, 2) == 0.0
    ensures RadicalInverse(1, 2) == 0.5
    ensures RadicalInverse(2, 2) == 0.25
    ensures RadicalInverse(3, 2) == 0.75
  {
  }
}

=== FILE: sliding_window.dfy ===
/** The bounded sensor histories of the DualSense driver: each reading is
    appended last and, once a list is longer than its bound n, the oldest
    reading is popped from the front. */
module SlidingWindow {

  /** One history list after one reading: `w.append(v)`, then `w.pop(0)`
      when `len(w) > n`. */
  function Push(w: seq<int>, v: int, n: int): (r: seq<int>)
    ensures |r| == if |w| + 1 > n then |w| else |w| + 1
    ensures r == (w + [v])[|w| + 1 - |r|..]
    ensures |r| > 0 ==> r[|r| - 1] == v
    ensures 0 <= n && |w| <= n ==> |r| <= n
  {
    var appended := w + [v];
    if |appended| > n then appended[1..] else appended
  }

  /** A window of one keeps just the newest reading. */
  lemma PushOne(w: seq<int>, v: int)
    requires |w| <= 1
    ensures Push(w, v, 1) == [v]
  {
  }

  /** Reference definition: the last n entries of s (all of s when it has
      fewer; none when n is not positive). */
  function LastN(s: seq<int>, n: int): (r: seq<int>)
    ensures |r| <= |s|
  {
    if n <= 0 then [] else if |s| <= n then s else s[|s| - n..]
  }

  /** A list fed the readings vs one at a time. */
  function PushAll(w: seq<int>, vs: seq<int>, n: int): seq<int>
    decreases |vs|
  {
    if |vs| == 0 then w else PushAll(Push(w, vs[0], n), vs[1..], n)
  }

  /** A window that has never overflowed, after any sequence of readings,
      holds exactly the last n of everything it was fed, oldest first. */
  lemma {:induction false} PushAllKeepsLastN(w: seq<int>, vs: seq<int>, n: int)
    requires 0 <= n && |w| <= n
    ensures PushAll(w, vs, n) == LastN(w + vs, n)
    decreases |vs|
  {
    if |vs| == 0 {
      assert w + vs == w;
    } else {
      var w' := Push(w, vs[0], n);
      assert PushAll(w, vs, n) == PushAll(w', vs[1..], n);
      PushAllKeepsLastN(w', vs[1..], n);
      PushLastN(w, vs[0], vs[1..], n);
      SplitHead(w, vs);
    }
  }

  /** Appending the head of vs and then its tail appends vs. */
  lemma SplitHead(w: seq<int>, vs: seq<int>)
    requires |vs| > 0
    ensures w + [vs[0]] + vs[1..] == w + vs
  {
    assert [vs[0]] + vs[1..] == vs;
  }

  /** One push of a window that has not overflowed, followed by the rest,
      sees the same last n entries as the whole input. */
  lemma PushLastN(w: seq<int>, v: int, rest: seq<int>, n: int)
    requires 0 <= n && |w| <= n
    ensures LastN(Push(w, v, n) + rest, n) == LastN(w + [v] + rest, n)
  {
    var s := w + [v] + rest;
    if n == 0 {
    } else if |w| + 1 > n {
      assert Push(w, v, n) + rest == s[1..];
    } else {
      assert Push(w, v, n) + rest == s;
    }
  }

  /** Every list in ws has the same length. */
  predicate Lockstep(ws: seq<seq<int>>)
  {
    forall i, j :: 0 <= i < |ws| && 0 <= j < |ws| ==> |ws[i]| == |ws[j]|
  }

  /** Several history lists fed one reading each, as in
      `self.Pitch.append(..); ...; if len(self.Pitch) > n: self.Pitch.pop(0), self.Yaw.pop(0), ...`:
      only the first list's length decides whether every list drops its
      oldest reading. */
  function PushTogether(ws: seq<seq<int>>, vs: seq<int>, n: int): (r: seq<seq<int>>)
    requires |ws| == |vs| > 0
    ensures |r| == |ws|
    ensures Lockstep(ws) ==> Lockstep(r)
    ensures Lockstep(ws) ==> forall i :: 0 <= i < |r| ==> r[i] == Push(ws[i], vs[i], n)
  {
    var pop := |ws[0]| + 1 > n;
    seq(|ws|, i requires 0 <= i < |ws| =>
      var appended := ws[i] + [vs[i]];
      if pop then appended[1..] else appended)
  }
}

=== FILE: vectors.dfy ===
/** Configurations of the planner: points of an n-dimensional real space,
    with the element-wise arithmetic numpy applies to them. Distances are
    kept squared, so no square root is needed. */
module Vectors {

  type Vector = seq<real>

  function Sub(a: Vector, b: Vector): (r: Vector)
    requires |a| == |b|
    ensures |r| == |a| && forall i :: 0 <= i < |r| ==> r[i] == a[i] - b[i]
  {
    seq(|a|, i requires 0 <= i < |a| => a[i] - b[i])
  }

  function Add(a: Vector, b: Vector): (r: Vector)
    requires |a| == |b|
    ensures |r| == |a| && forall i :: 0 <= i < |r| ==> r[i] == a[i] + b[i]
  {
    seq(|a|, i requires 0 <= i < |a| => a[i] + b[i])
  }

  /** numpy's `v / d`, element by element. */
  function Div(v: Vector, d: real): (r: Vector)
    requires d != 0.0
    ensures |r| == |v| && forall i :: 0 <= i < |r| ==> r[i] == v[i] / d
  {
    seq(|v|, i requires 0 <= i < |v| => v[i] / d)
  }

  function Scale(c: real, v: Vector): (r: Vector)
    ensures |r| == |v| && forall i :: 0 <= i < |r| ==> r[i] == c * v[i]
  {
    seq(|v|, i requires 0 <= i < |v| => c * v[i])
  }

  /** The squared Euclidean norm, the sum of the squared coordinates. */
  function SqNorm(v: Vector): (r: real)
    ensures r >= 0.0
  {
    if |v| == 0 then 0.0 else v[0] * v[0] + SqNorm(v[1..])
  }

  function SqDist(a: Vector, b: Vector): (r: real)
    requires |a| == |b|
    ensures r >= 0.0
  {
    SqNorm(Sub(a, b))
  }

  /** Scaling a vector by c scales its squared norm by c * c. */
  lemma {:induction false} SqNormScale(c: real, v: Vector)
    ensures SqNorm(Scale(c, v)) == c * c * SqNorm(v)
  {
    if |v| > 0 {
      var w := Scale(c, v);
      var k := c * c;
      ScaleTail(c, v);
      SqNormScale(c, v[1..]);
      var restV := SqNorm(v[1..]);
      assert SqNorm(w[1..]) == k * restV;
      ScaleStep(c, k, v[0], w[0], restV, SqNorm(w[1..]), SqNorm(w), SqNorm(v));
    }
  }

  lemma ScaleTail(c: real, v: Vector)
    requires |v| > 0
    ensures Scale(c, v)[0] == c * v[0]
    ensures Scale(c, v)[1..] == Scale(c, v[1..])
  {
    var w, tail := Scale(c, v), Scale(c, v[1..]);
    assert forall i :: 0 <= i < |tail| ==> w[1..][i] == tail[i];
  }

  /** The arithmetic of one step of SqNormScale, with k standing for c * c. */
  lemma ScaleStep(c: real, k: real, h: real, a: real, restV: real, restW: real, sw: real, sv: real)
    requires k == c * c
    requires a == c * h
    requires sw == a * a + restW
    requires restW == k * restV
    requires sv == h * h + restV
    ensures sw == k * sv
  {
    SquareProduct(c, h);
    assert a * a == k * (h * h);
    Distribute(k, h * h, restV);
  }

  lemma Distribute(k: real, a: real, b: real)
    ensures k * a + k * b == k * (a + b)
  {
  }

  lemma SquareProduct(c: real, h: real)
    ensures (c * h) * (c * h) == c * c * (h * h)
  {
  }
}

=== FILE: wrappers.dfy ===
/** An optional value: the Python attributes that start as `None` (or do not
    exist yet) and are filled in by a later call. */
module Wrappers {

  datatype Option<+T> = None | Some(value: T) {

    /** Returns the value in Some, or the given default for None
        (the `x if x is not None else default` idiom). */
    function GetOr(default: T): T
    {
      match this
      case Some(v) => v
      case None => default
    }
  }
}
